=== FILE: README.md ===
# Word sieve: a verified model of the text pipeline and undo history

Word sieve is a small Swing program for building vocabulary lists. You load
a text file and run a chain of actions on it:

- **Strip Anki translations** keeps the part of each line before the first tab.
- **Filter** drops the lines whose word is in the selected language's word list.
- **Count&Sort** runs an external part-of-speech tagger on the document. It
  counts the words the tagger prints and lists them from most to least
  frequent, with or without rank and count.

Each action writes its result to a new temporary file `tmp/tmp<n>`, and
"Undo last action" steps back through those files. Settings are kept in a
`config` file of `key=value` lines between runs.

This project models, in Dafny, the part of `src/gui/MainWindow.java` that
does this work. Files are sequences of lines and the settings are a record.
The tagger's output, the disk, the platform and the moment the user presses
Cancel are all parameters.

Modules:

- `JavaString` states Java's `String.split` on one character exactly:
  - a string without the separator is one field, so `""` splits to `[""]`;
  - trailing empty fields are dropped;
  - a string made only of separators splits to nothing.
  The module also has `Join`, `startsWith`/`endsWith`, decimal printing and
  its inverse, and ASCII lower-casing.
- `WordStats` holds the frequency list built by `addWordToList` and the
  stable sort by descending count (`Collections.sort` with `MyComparator`).
- `Transforms` holds the line loops of the three actions, the lines
  Count&Sort prints, and the 11-line preview.
- `Snapshots` is the history: the loaded document, the temporary files, the
  cursor `currentTmp`, the current document and the enabled state of Undo.
  It also holds Load, Undo and the effect of an action's outcome on the
  history.
- `Configuration` is the `config` reader and writer.
- `Pipeline` puts it together. Its pieces are:
  - the checks each action makes before it starts;
  - the tagger command line;
  - cancellation after a given number of lines;
  - the exceptions a line loop can raise;
  - the resulting history.

The model keeps the program's own behaviour where it breaks the rule that
the cursor names the current document, or where it surprises otherwise:

- An action that throws after advancing `currentTmp` leaves it advanced. A
  later undo then shows the failed action's leftover file
  (`Snapshots.UndoAfterFailure`).
- A cancelled action leaves its partial temporary file on disk.
- Count&Sort checks the language only after the cursor has moved, so a
  missing language counts as a failure there. Filter refuses a missing
  language before touching anything.
- When no `config` file exists, the language stays `null`. On exit it is
  written as the text `null`, which the next start reads as a language
  named `null`.
- On Unix an unconfigured tagger gives the command `null <path>`.

## Model

| member | source | states |
|---|---|---|
| JavaString.Split | src/gui/MainWindow.java:455-456 | Java's `split` on one character: the fields cut at every separator, a prefix of them with only empty fields left off. No field holds the separator. There is no field exactly when the line is non-empty and made only of the separator. Otherwise the first field is the text before the first separator, and the last field is empty only when the line is empty. |
| JavaString.SplitJoin | src/gui/MainWindow.java:374 | Splitting the join of separator-free fields, the last non-empty, gives the fields back. |
| JavaString.FieldsJoin | src/gui/MainWindow.java:401-405 | Cutting at every separator inverts joining separator-free fields. |
| JavaString.DecimalRoundTrip | src/gui/MainWindow.java:567 | The decimal text of a count reads back as that count. |
| WordStats.AddWordSpec | src/gui/MainWindow.java:678-686 | Adding a word already listed increments the count of its first entry and nothing else. An absent word is appended with count 1. |
| WordStats.Position | src/gui/MainWindow.java:679-683 | The position the scan stops at: the first entry with the word, or the end of the list when no entry has it. |
| WordStats.PositionFirstIndex | src/gui/MainWindow.java:679-683 | The entry the scan stops at is where the word first occurs among the listed words. |
| WordStats.AddWordWords | src/gui/MainWindow.java:678-686 | The words of the list stay the same when the word is present; otherwise the word is appended. |
| WordStats.AddWordCounts | src/gui/MainWindow.java:678-686 | On a list of distinct words, only the entry of the added word changes, by one. |
| WordStats.AddWord | src/gui/MainWindow.java:678-686 | Adding a word adds at most one entry and raises the sum of the counts by exactly one. |
| WordStats.FirstIndex | src/gui/MainWindow.java:556-560 | The position of the first occurrence of a word in the words read, or the length when it is absent. |
| WordStats.AccumulateMembers | src/gui/MainWindow.java:556-560 | After accumulating the words read, a word is listed exactly when it was read. |
| WordStats.AccumulateDistinct | src/gui/MainWindow.java:556-560 | The accumulated words are pairwise distinct. |
| WordStats.AccumulateOrder | src/gui/MainWindow.java:556-560 | Accumulated entries appear in order of their words' first occurrence. |
| WordStats.AccumulateCounts | src/gui/MainWindow.java:556-560 | Each entry's count is the number of times its word was read, and at least 1. |
| WordStats.Accumulate | src/gui/MainWindow.java:556-560 | There are no more entries than words read, and the counts sum to the number of words read. |
| WordStats.Rank | src/gui/MainWindow.java:563 | The sorted list has non-increasing counts and is a permutation of its input. |
| WordStats.RankStable | src/gui/MainWindow.java:563 | For each count, the entries with that count keep their input order, so the sort is stable. |
| WordStats.StableSortUnique | src/gui/MainWindow.java:706-709 | Two lists sorted by descending count that keep each count's entries in the same order are equal. So any stable sort with this comparator gives the result of `Rank`. |
| WordStats.RankKeepsOrder | src/gui/MainWindow.java:563 | Any order between entries of the input survives the sort unless a higher count puts the later entry first. |
| WordStats.RankedStatistics | src/gui/MainWindow.java:556-563 | The ranking of the words read: distinct words, exactly the words read, each with its number of occurrences, counts non-increasing, ties in order of first occurrence. |
| WordStats.RankingExample | src/gui/MainWindow.java:556-563 | `a,b,a,c,b,a` ranks as `a:3, b:2, c:1`. |
| WordStats.TieExample | src/gui/MainWindow.java:556-563 | `x,y` ranks as `x:1, y:1`, ties in reading order. |
| Transforms.StripLine | src/gui/MainWindow.java:455-457 | A line has no first field exactly when it is made only of tabs (where the program throws). Otherwise the kept text is the line up to its first tab. |
| Transforms.StripWithoutTab | src/gui/MainWindow.java:455-457 | A line without a tab is kept unchanged. |
| Transforms.StripExample | src/gui/MainWindow.java:455-457 | `hello<TAB>cześć` becomes `hello`. |
| Transforms.StripRun | src/gui/MainWindow.java:454-458 | The loop runs to the end exactly when no line is made only of tabs, giving one output line per input line. Otherwise it stops at the first such line, having written the lines before it. Every written line is its input line up to the first tab. |
| Transforms.FilterKey | src/gui/MainWindow.java:649-656 | A line's key, when it has one, is one of its space-separated fields and contains no space. |
| Transforms.FilterKeyOfFields | src/gui/MainWindow.java:649-656 | A line of space-free fields, the last non-empty, has as its key its only field, or the middle of three. With any other number of fields it has no key, and Filter drops it whatever the word list. Lines ending in spaces, whose trailing empty fields `split` drops, are covered only by `FilterKey` and `JavaString.Split`. |
| Transforms.FilterLines | src/gui/MainWindow.java:648-660 | The output is an order-preserving subsequence of the input lines, copied verbatim. Every output line has a key that is not listed. Each surviving line keeps all its occurrences and no other line appears. |
| Transforms.KeyOfWord | src/gui/MainWindow.java:650-651 | A line without spaces is its own key. |
| Transforms.KeyOfTriple | src/gui/MainWindow.java:652-653 | The key of `a b c` is `b`. |
| Transforms.FilterExample | src/gui/MainWindow.java:648-660 | With the list `the`, `a`, the lines `the`, `1 cat 2`, `dog` filter to `1 cat 2`, `dog`. |
| Transforms.TaggerWord | src/gui/MainWindow.java:557-558 | A tagger line has no word exactly when it is made only of tabs (where the program throws). Otherwise the word contains no tab and is the last non-empty field, or empty only for the empty line. |
| Transforms.TaggerWords | src/gui/MainWindow.java:556-560 | The read loop finishes exactly when no line is made only of tabs. Each word read is the word of its line. |
| Transforms.StatLines | src/gui/MainWindow.java:565-568 | There is one line per entry. Line i, for a non-empty word without spaces, splits on spaces into three fields: the rank i + 1, the word and its count. The first and last fields read back as those numbers, and Filter keys the line on the word. |
| Transforms.StatLineRoundTrip | src/gui/MainWindow.java:567 | A stats line splits on spaces back into its rank, word and count. Filter takes the word as its key. |
| Transforms.CountSortLines | src/gui/MainWindow.java:563-608 | There is one output line per distinct word read. Without stats the lines are exactly the words read, each once. |
| Transforms.Preview | src/gui/MainWindow.java:401-405 | The preview is the first lines of the document, at most eleven, each followed by a newline. |
| Transforms.PreviewRoundTrip | src/gui/MainWindow.java:401-405 | Cutting the preview at newlines gives the first min(11, n) lines and the empty rest after the last newline. |
| Snapshots.Load | src/gui/MainWindow.java:132-139 | Load makes the chosen file the original and current document, sets the cursor to -1, disables undo and keeps the temporary files. |
| Snapshots.Apply | src/gui/MainWindow.java:447-468 | Finishing advances the cursor, makes the new file current and enables undo. Cancelling leaves cursor and current document as they were. Throwing leaves the cursor advanced and the current document unchanged. A refusal changes nothing. Earlier snapshots are untouched. |
| Snapshots.Undo | src/gui/MainWindow.java:262-274 | Undo decrements the cursor and selects `tmp<cursor>`. Below 0 it selects the loaded document and disables itself. While disabled it does nothing. |
| Snapshots.CurrentExists | src/gui/MainWindow.java:265-271 | In a consistent history the current document is on disk. |
| Snapshots.CommitAllAdvances | src/gui/MainWindow.java:465-467 | n finished actions advance the cursor by n and make the last output current. |
| Snapshots.UndoReversesCommits | src/gui/MainWindow.java:262-274 | n undos after n finished actions restore cursor, current document and its contents. |
| Snapshots.BackToOrigin | src/gui/MainWindow.java:132-139 | After Load, n finished actions and n undos show the loaded document with undo disabled. |
| Snapshots.CommitAfterUndo | src/gui/MainWindow.java:448-465 | An action after an undo overwrites the undone snapshot; there is no redo. |
| Snapshots.UndoAfterFailure | src/gui/MainWindow.java:469-471 | After a failure, one undo shows the failed action's leftover file instead of the loaded document. |
| Snapshots.FailureBreaksConsistency | src/gui/MainWindow.java:469-471 | An exception always leaves the cursor ahead of the current document. |
| Configuration.LoadConfig | src/gui/MainWindow.java:362-391 | Without a `config` file the directory is `~`, there is no language and both maps are empty. With one, there always is a language. |
| Configuration.ParseWithoutLanguageLine | src/gui/MainWindow.java:373-387 | Lines none of which is a `lastUsedLanguage=<value>` line leave the language as it was. |
| Configuration.DefaultLanguageLoads | src/gui/MainWindow.java:367-388 | A `config` file without a language line loads the language `English`. |
| Configuration.ParseLine | src/gui/MainWindow.java:374-387 | A line that does not split on `=` into exactly two parts changes nothing. Any line changes at most one setting, never removes a language and never removes a map entry. |
| Configuration.ParseLines | src/gui/MainWindow.java:373-387 | Reading lines in order never removes a filter or tagger entry. |
| Configuration.SkipsMalformed | src/gui/MainWindow.java:374-378 | A line that does not split on `=` into exactly two parts changes nothing. |
| Configuration.ParseFilterLine | src/gui/MainWindow.java:383-384 | `filter<language>=<path>` sets that language's word list. |
| Configuration.ParseTaggerLine | src/gui/MainWindow.java:385-386 | `tagger<language>=<path>` sets that language's tagger. |
| Configuration.LaterFilterLineWins | src/gui/MainWindow.java:373-387 | Of two filter lines for one language, the later wins. |
| Configuration.LaterDirectoryLineWins | src/gui/MainWindow.java:379-380 | Of two working-directory lines, the later wins. |
| Configuration.Entries | src/gui/MainWindow.java:434-437 | The i-th line is the prefix, the i-th key, `=` and that key's value. |
| Configuration.SaveConfig | src/gui/MainWindow.java:428-437 | The file is the `lastWorkingDirectory=<directory>` line, then `lastUsedLanguage=<language>` (the text `null` when there is none). Then comes one `filter<key>=<value>` line per position of the filter order given, and one `tagger<key>=<value>` line per position of the tagger order. The orders hold every key of their map. |
| Configuration.SaveLoadRoundTrip | src/gui/MainWindow.java:373-387 | Reading back what was written gives the same settings, in whatever order the maps were written. This needs a language, non-empty `=`-free values, `=`-free keys and no line breaks anywhere. |
| Configuration.NullLanguageReloads | src/gui/MainWindow.java:433 | A session without a language writes `null`, which reads back as a language named `null`. |
| Pipeline.Processed | src/gui/MainWindow.java:454 | Cancelling after k lines processes the first min(k, n) lines; without a cancel, all of them. |
| Pipeline.TaggerCommand | src/gui/MainWindow.java:516-529 | There is a command exactly on Unix or Windows, and it ends with a space and the document's path. |
| Pipeline.WindowsIgnoresTaggers | src/gui/MainWindow.java:524-525 | On Windows the command is `cmd.exe /c tag-<language in lower case> <path>`, whatever taggers are configured. |
| Pipeline.ConfiguredUnixTagger | src/gui/MainWindow.java:521-522 | On Unix the command is the language's configured tagger, a space and the path. |
| Pipeline.UnconfiguredUnixTagger | src/gui/MainWindow.java:521-522 | On Unix a language without a tagger gives the command `null <path>`. |
| Pipeline.RunStrip | src/gui/MainWindow.java:446-473 | Strip finishes exactly when it is not cancelled and no line is made only of tabs, giving each line up to its first tab. It throws exactly when a processed line is made only of tabs, having written the first such line's predecessors, each up to its first tab. A cancel otherwise leaves those lines for the processed prefix. |
| Pipeline.RunFilter | src/gui/MainWindow.java:642-668 | Filter finishes exactly when it is not cancelled. The filtered lines come from the processed input. |
| Pipeline.RunCountSort | src/gui/MainWindow.java:553-577 | Count&Sort finishes exactly when it is not cancelled and no tagger line is made only of tabs. Its output is the count-sort of each line's word. It throws exactly when a processed tagger line is made only of tabs, leaving an empty file. A cancel writes the count-sort of the words of the processed lines. |
| Pipeline.CountSort | src/gui/MainWindow.java:516-551 | A path containing a space is refused, and only such a path. Past that check a missing language fails, and then an unrecognized platform fails. |
| Pipeline.CountSortRuns | src/gui/MainWindow.java:516-577 | Past its checks, Count&Sort runs the tagger command for the language and counts its output lines. It fails when that command cannot be started. |
| Pipeline.FilterRuns | src/gui/MainWindow.java:634-675 | A configured Filter runs the filter loop on the current document against the word list. It fails after the cursor has moved when the document or the word list is missing. |
| Pipeline.StripRuns | src/gui/MainWindow.java:446-458 | Strip runs the strip loop on the current document's lines, and fails when that document's file is missing. |
| Pipeline.FailedStrip | src/gui/MainWindow.java:454-471 | A Strip that throws leaves the cursor one past the unchanged current document. It throws at the first line made only of tabs, and the slot holds the lines before it, stripped. |
| Pipeline.CancelledStrip | src/gui/MainWindow.java:462-463 | A cancelled Strip keeps the cursor, the current document and its contents. Its slot holds the processed lines, stripped. |
| Pipeline.Execute | src/gui/MainWindow.java:625-633 | Strip never refuses. Filter refuses exactly when there is no language or no word list for it. |
| Pipeline.Perform | src/gui/MainWindow.java:446-676 | An action keeps the history valid, and consistent unless it threw. |
| Pipeline.FilterNeedsConfiguration | src/gui/MainWindow.java:626-633 | Filter without a language or word list leaves the history unchanged. |
| Pipeline.CountSortNeedsPlainPath | src/gui/MainWindow.java:544-547 | Count&Sort on a path with a space leaves the history unchanged. |
| Pipeline.CountSortWithoutLanguage | src/gui/MainWindow.java:549-550 | Count&Sort without a language leaves the cursor one ahead of the unchanged current document. |
| Pipeline.CancelledFilter | src/gui/MainWindow.java:662-664 | A cancelled Filter keeps cursor, current document and its contents. Its partial file stays. |
| Pipeline.StripThenUndo | src/gui/MainWindow.java:446-468 | Strip to the end makes the stripped lines current, one per line. One undo restores the previous document. |
| Pipeline.CountSortWordsOutput | src/gui/MainWindow.java:597-608 | Without stats, each word read is printed once, by non-increasing count, ties in order of first occurrence. |
| Pipeline.CountSortStatsOutput | src/gui/MainWindow.java:563-568 | With stats, line i is rank i + 1, the i-th word of the plain output and its number of occurrences. |

## Left out

- The Swing window, menus, labels, message boxes and the Cancel dialog are
  presentation only. The language and filter/tagger menus that edit the
  settings are left out for the same reason.
- The background threads and the shared cancel flag are not modelled as
  concurrency. Cancellation is the number of lines processed before the
  flag is seen.
- Filter's read of the word list is left out. That loop also stops on the
  cancel flag, and a cancel there is modelled as a cancel after 0 lines of
  the document.
- File I/O is modelled as maps from paths or indices to lines. The `tmp`
  directory is assumed to exist. Only Count&Sort creates it, through
  `getWriterToTmp`. Strip and Filter open `tmp/tmp<n>` directly and, when the
  directory is missing, throw after advancing the cursor; that failure is not
  modelled. Neither is failing to write a file, or reading a file that
  exists but cannot be read.
- Save As is not modelled. It copies the current document to a chosen
  file, and deletes that file when cancelled. The cursor and the current
  document do not change, but the contents can. Saving onto the loaded
  file or onto a `tmp/tmp<n>` file rewrites that file, and a cancelled
  save deletes it.
- The file choosers (Load, Save As, filter and tagger files) also update
  the remembered working directory. The model's `Snapshots.Load` leaves
  the settings alone.
- Starting the tagger process and waiting for it are not modelled. A
  command is either absent (it cannot start) or maps to the lines it prints.
- Reading `os.name` is not modelled. The platform is a parameter.
- Actions run before any Load are left out. There the program dereferences
  a null file.
- The preview text is modelled (`Transforms.Preview`), but not which
  document it reads or its display.
- Snapshots.Load: the loaded file's lines are read once, at Load, and kept
  apart from the temporary files. The program keeps only the path. The
  model therefore assumes the loaded file is none of the `tmp/tmp<n>` files
  and is never the target of Save As. Otherwise a later action or save
  rewrites it: Strip on a loaded `tmp/tmp0` empties its own input before
  reading it.
- Snapshots.BackToOrigin: shows the lines read at Load, which holds only
  under the assumption on Snapshots.Load above. If the loaded file was
  rewritten since, the program shows the new contents.
- Configuration.SaveLoadRoundTrip: files are modelled as decoded
  characters. Every file is read and written in the platform's default
  charset, and the model assumes every character is encodable in it. A
  character that is not, such as a Cyrillic directory name under cp1250,
  is written as `?` and does not survive the round trip. Undecodable bytes
  read back as U+FFFD, so the verbatim copies of Filter and the words
  Count&Sort reads hold only for text that survives decoding and encoding.
- Configuration.SaveConfig: the file is a sequence of lines. A key or value
  holding a line break would be written by `println` as several lines and
  read back differently; Configuration.SaveLoadRoundTrip excludes such
  settings (`OneLine`).
- Pipeline.RunStrip: the lines written before an exception count as the
  file's contents. The program never closes that writer, so buffered lines
  may be missing from the real file.
- Transforms.StripLine: lines are read by `readLine`, so they hold no line
  breaks. The model does not restrict line contents.
- JavaString.ToLower: lower-cases ASCII letters only. Java's
  `toLowerCase` also maps other scripts, and only the Windows tagger
  command uses it.
- WordStats.AddWordSpec: counts are unbounded. Java's `int` counter would
  wrap after 2^31 - 1 occurrences, and so would the comparator's
  subtraction.
- Snapshots.Apply: the cursor is unbounded, where Java's `int` would wrap.
- Configuration.LoadConfig: a `config` file that exists but fails while
  being read is not modelled. The program then keeps what it had read, with
  no language.

=== FILE: configuration.dfy ===
/** The `config` file: one `key=value` setting per line, for the last
    working directory, the last used language and the filter and tagger
    file of each language. */
module Configuration {
  import opened Wrappers
  import opened JavaString

  const WorkingDirectoryKey := "lastWorkingDirectory"
  const LanguageKey := "lastUsedLanguage"
  const FilterPrefix := "filter"
  const TaggerPrefix := "tagger"
  const DefaultWorkingDirectory := "~"
  const DefaultLanguage := "English"

  /** The settings; a language of None is Java's `null`. */
  datatype Config = Config(
    workingDirectory: string,
    language: Option<string>,
    filters: map<string, string>,
    taggers: map<string, string>)

  /** Reads one line into the settings. A line that does not split on `=`
      into exactly two parts is skipped; the two exact keys are compared first,
      then the two prefixes, whose remainder names the language. */
  function ParseLine(cfg: Config, line: string): (r: Config)
    ensures |Split(line, '=')| != 2 ==> r == cfg
    ensures || r == cfg.(workingDirectory := r.workingDirectory) || r == cfg.(language := r.language)
            || r == cfg.(filters := r.filters) || r == cfg.(taggers := r.taggers)
    ensures cfg.language.Some? ==> r.language.Some?
    ensures cfg.filters.Keys <= r.filters.Keys && cfg.taggers.Keys <= r.taggers.Keys
  {
    var chunk := Split(line, '=');
    if |chunk| != 2 then cfg
    else if chunk[0] == WorkingDirectoryKey then cfg.(workingDirectory := chunk[1])
    else if chunk[0] == LanguageKey then cfg.(language := Some(chunk[1]))
    else if StartsWith(chunk[0], FilterPrefix) then
      cfg.(filters := cfg.filters[chunk[0][|FilterPrefix|..] := chunk[1]])
    else if StartsWith(chunk[0], TaggerPrefix) then
      cfg.(taggers := cfg.taggers[chunk[0][|TaggerPrefix|..] := chunk[1]])
    else cfg
  }

  /** Reads the lines in order. */
  function ParseLines(cfg: Config, lines: seq<string>): (r: Config)
    ensures cfg.filters.Keys <= r.filters.Keys && cfg.taggers.Keys <= r.taggers.Keys
    decreases |lines|
  {
    if |lines| == 0 then cfg else ParseLines(ParseLine(cfg, lines[0]), lines[1..])
  }

  /** The settings at start-up: the defaults overridden by the file, or,
      when there is no file, the default directory and no language at all. */
  function LoadConfig(file: Option<seq<string>>): (r: Config)
    ensures file.None? ==> r == Config(DefaultWorkingDirectory, None, map[], map[])
    ensures file.Some? ==> r.language.Some?
  {
    match file
    case None => Config(DefaultWorkingDirectory, None, map[], map[])
    case Some(lines) =>
      var r := ParseLines(Config(DefaultWorkingDirectory, Some(DefaultLanguage), map[], map[]), lines);
      ParseKeepsLanguage(Config(DefaultWorkingDirectory, Some(DefaultLanguage), map[], map[]), lines);
      r
  }

  /** A line the reader takes as the language line. */
  predicate SetsLanguage(line: string)
  {
    |Split(line, '=')| == 2 && Split(line, '=')[0] == LanguageKey
  }

  /** Lines without a language line leave the language as it was. */
  lemma {:induction false} ParseWithoutLanguageLine(cfg: Config, lines: seq<string>)
    requires forall i :: 0 <= i < |lines| ==> !SetsLanguage(lines[i])
    ensures ParseLines(cfg, lines).language == cfg.language
    decreases |lines|
  {
    if |lines| > 0 {
      assert !SetsLanguage(lines[0]);
      ParseWithoutLanguageLine(ParseLine(cfg, lines[0]), lines[1..]);
    }
  }

  /** A file without a language line loads the default language. */
  lemma DefaultLanguageLoads(lines: seq<string>)
    requires forall i :: 0 <= i < |lines| ==> !SetsLanguage(lines[i])
    ensures LoadConfig(Some(lines)).language == Some(DefaultLanguage)
  {
    ParseWithoutLanguageLine(Config(DefaultWorkingDirectory, Some(DefaultLanguage), map[], map[]), lines);
  }

  lemma {:induction false} ParseKeepsLanguage(cfg: Config, lines: seq<string>)
    requires cfg.language.Some?
    ensures ParseLines(cfg, lines).language.Some?
    decreases |lines|
  {
    if |lines| > 0 {
      ParseKeepsLanguage(ParseLine(cfg, lines[0]), lines[1..]);
    }
  }

  /** Reading one more line is reading it into what the earlier lines gave. */
  lemma {:induction false} ParseSnoc(cfg: Config, lines: seq<string>, line: string)
    ensures ParseLines(cfg, lines + [line]) == ParseLine(ParseLines(cfg, lines), line)
    decreases |lines|
  {
    if |lines| > 0 {
      ParseSnoc(ParseLine(cfg, lines[0]), lines[1..], line);
      assert (lines + [line])[1..] == lines[1..] + [line];
    } else {
      assert lines + [line] == [line];
    }
  }

  /** A line that does not split into exactly two parts changes nothing. */
  lemma SkipsMalformed(cfg: Config, lines: seq<string>, line: string)
    requires |Split(line, '=')| != 2
    ensures ParseLines(cfg, lines + [line]) == ParseLines(cfg, lines)
  {
    ParseSnoc(cfg, lines, line);
  }

  /** A value that survives the round trip: non-empty and free of `=`. */
  predicate Plain(s: string)
  {
    s != "" && '=' !in s
  }

  /** How `key=value` splits. */
  lemma SplitEntry(key: string, value: string)
    requires '=' !in key && Plain(value)
    ensures Split(key + "=" + value, '=') == [key, value]
  {
    var fs := [key, value];
    assert Join(fs[1..], '=') == value;
    assert Join(fs, '=') == key + "=" + value;
    SplitJoin(fs, '=');
  }

  /** The filter line of a language sets that language's filter. */
  lemma ParseFilterLine(cfg: Config, language: string, path: string)
    requires '=' !in language && Plain(path)
    ensures ParseLine(cfg, FilterPrefix + language + "=" + path) == cfg.(filters := cfg.filters[language := path])
  {
    var key := FilterPrefix + language;
    assert key[0] == 'f';
    assert '=' !in key by { assert key == FilterPrefix + language; }
    SplitEntry(key, path);
    assert key + "=" + path == FilterPrefix + language + "=" + path;
    assert key[|FilterPrefix|..] == language;
  }

  /** The tagger line of a language sets that language's tagger. */
  lemma ParseTaggerLine(cfg: Config, language: string, path: string)
    requires '=' !in language && Plain(path)
    ensures ParseLine(cfg, TaggerPrefix + language + "=" + path) == cfg.(taggers := cfg.taggers[language := path])
  {
    var key := TaggerPrefix + language;
    assert key[0] == 't';
    assert '=' !in key by { assert key == TaggerPrefix + language; }
    SplitEntry(key, path);
    assert key + "=" + path == TaggerPrefix + language + "=" + path;
    assert key[|TaggerPrefix|..] == language;
  }

  /** Of two filter lines for the same language, the later one wins. */
  lemma LaterFilterLineWins(cfg: Config, lines: seq<string>, language: string, path: string)
    requires '=' !in language && Plain(path)
    ensures var r := ParseLines(cfg, lines + [FilterPrefix + language + "=" + path]);
            language in r.filters && r.filters[language] == path
  {
    ParseSnoc(cfg, lines, FilterPrefix + language + "=" + path);
    ParseFilterLine(ParseLines(cfg, lines), language, path);
  }

  /** The working-directory line sets the working directory. */
  lemma ParseDirectoryLine(cfg: Config, directory: string)
    requires Plain(directory)
    ensures ParseLine(cfg, WorkingDirectoryKey + "=" + directory) == cfg.(workingDirectory := directory)
  {
    SplitEntry(WorkingDirectoryKey, directory);
  }

  /** The language line sets the language. */
  lemma ParseLanguageLine(cfg: Config, language: string)
    requires Plain(language)
    ensures ParseLine(cfg, LanguageKey + "=" + language) == cfg.(language := Some(language))
  {
    SplitEntry(LanguageKey, language);
  }

  /** Of two working-directory lines, the later one wins. */
  lemma LaterDirectoryLineWins(cfg: Config, lines: seq<string>, directory: string)
    requires Plain(directory)
    ensures ParseLines(cfg, lines + [WorkingDirectoryKey + "=" + directory]).workingDirectory == directory
  {
    ParseSnoc(cfg, lines, WorkingDirectoryKey + "=" + directory);
    ParseDirectoryLine(ParseLines(cfg, lines), directory);
  }

  /** The lines `<prefix><key>=<value>` for the keys in the given order. */
  function Entries(prefix: string, m: map<string, string>, keys: seq<string>): (r: seq<string>)
    requires forall k :: k in keys ==> k in m
    ensures |r| == |keys|
    ensures forall i :: 0 <= i < |keys| ==> r[i] == prefix + keys[i] + "=" + m[keys[i]]
  {
    if |keys| == 0 then [] else [prefix + keys[0] + "=" + m[keys[0]]] + Entries(prefix, m, keys[1..])
  }

  /** The file written at shutdown. The maps are Java hash maps, written in
      their own iteration order: here any order of their keys. A language of
      null is written as the text `null`. */
  function SaveConfig(cfg: Config, filterOrder: seq<string>, taggerOrder: seq<string>): (r: seq<string>)
    requires forall k :: k in filterOrder <==> k in cfg.filters
    requires forall k :: k in taggerOrder <==> k in cfg.taggers
    ensures |r| == 2 + |filterOrder| + |taggerOrder|
    ensures r[0] == WorkingDirectoryKey + "=" + cfg.workingDirectory
    ensures r[1] == LanguageKey + "=" + if cfg.language.Some? then cfg.language.value else "null"
    ensures forall i :: 2 <= i < 2 + |filterOrder| ==>
              r[i] == FilterPrefix + filterOrder[i - 2] + "=" + cfg.filters[filterOrder[i - 2]]
    ensures forall i :: 2 + |filterOrder| <= i < |r| ==>
              var k := taggerOrder[i - 2 - |filterOrder|]; r[i] == TaggerPrefix + k + "=" + cfg.taggers[k]
  {
    [WorkingDirectoryKey + "=" + cfg.workingDirectory,
     LanguageKey + "=" + (match cfg.language case Some(l) => l case None => "null")]
    + Entries(FilterPrefix, cfg.filters, filterOrder)
    + Entries(TaggerPrefix, cfg.taggers, taggerOrder)
  }

  /** Text that `println` writes as one line and `readLine` reads back. */
  predicate OneLine(s: string)
  {
    '\n' !in s && '\r' !in s
  }

  /** Settings the file format can carry: plain directory, language and
      paths, language names free of `=`, and no line breaks anywhere. */
  ghost predicate Saveable(cfg: Config)
  {
    && Storable(cfg.workingDirectory)
    && cfg.language.Some? && Storable(cfg.language.value)
    && (forall k :: k in cfg.filters ==> StorableKey(k) && Storable(cfg.filters[k]))
    && (forall k :: k in cfg.taggers ==> StorableKey(k) && Storable(cfg.taggers[k]))
  }

  /** A value that is written on one line and read back whole. */
  predicate Storable(s: string)
  {
    Plain(s) && OneLine(s)
  }

  /** A language name usable in a `filter` or `tagger` key. */
  predicate StorableKey(k: string)
  {
    '=' !in k && OneLine(k)
  }

  /** The map `m` restricted to `keys`. */
  function Restrict(m: map<string, string>, keys: seq<string>): (r: map<string, string>)
  {
    map k | k in keys && k in m :: m[k]
  }

  lemma RestrictCons(base: map<string, string>, m: map<string, string>, keys: seq<string>)
    requires |keys| > 0 && keys[0] in m
    ensures base[keys[0] := m[keys[0]]] + Restrict(m, keys[1..]) == base + Restrict(m, keys)
  {
    var left := base[keys[0] := m[keys[0]]] + Restrict(m, keys[1..]);
    var right := base + Restrict(m, keys);
    assert left.Keys == right.Keys by {
      assert forall x :: x in keys <==> x == keys[0] || x in keys[1..];
    }
    forall x | x in left ensures left[x] == right[x] {
      assert x in keys <==> x == keys[0] || x in keys[1..];
    }
  }

  lemma RestrictEmpty(base: map<string, string>, m: map<string, string>)
    ensures base + Restrict(m, []) == base
  {
    assert Restrict(m, []) == map[];
  }

  /** Reading a block of filter lines sets those filters. */
  lemma {:induction false} ParseFilterEntries(cfg: Config, m: map<string, string>, keys: seq<string>)
    requires forall k :: k in keys ==> k in m && '=' !in k && Plain(m[k])
    ensures ParseLines(cfg, Entries(FilterPrefix, m, keys)) == cfg.(filters := cfg.filters + Restrict(m, keys))
    decreases |keys|
  {
    if |keys| > 0 {
      var k := keys[0];
      var line := FilterPrefix + k + "=" + m[k];
      var rest := Entries(FilterPrefix, m, keys[1..]);
      assert Entries(FilterPrefix, m, keys) == [line] + rest;
      assert ([line] + rest)[0] == line && ([line] + rest)[1..] == rest;
      ParseFilterLine(cfg, k, m[k]);
      var cfg1 := cfg.(filters := cfg.filters[k := m[k]]);
      ParseFilterEntries(cfg1, m, keys[1..]);
      RestrictCons(cfg.filters, m, keys);
    } else {
      RestrictEmpty(cfg.filters, m);
    }
  }

  /** Reading a block of tagger lines sets those taggers. */
  lemma {:induction false} ParseTaggerEntries(cfg: Config, m: map<string, string>, keys: seq<string>)
    requires forall k :: k in keys ==> k in m && '=' !in k && Plain(m[k])
    ensures ParseLines(cfg, Entries(TaggerPrefix, m, keys)) == cfg.(taggers := cfg.taggers + Restrict(m, keys))
    decreases |keys|
  {
    if |keys| > 0 {
      var k := keys[0];
      var line := TaggerPrefix + k + "=" + m[k];
      var rest := Entries(TaggerPrefix, m, keys[1..]);
      assert Entries(TaggerPrefix, m, keys) == [line] + rest;
      assert ([line] + rest)[0] == line && ([line] + rest)[1..] == rest;
      ParseTaggerLine(cfg, k, m[k]);
      var cfg1 := cfg.(taggers := cfg.taggers[k := m[k]]);
      ParseTaggerEntries(cfg1, m, keys[1..]);
      RestrictCons(cfg.taggers, m, keys);
    } else {
      RestrictEmpty(cfg.taggers, m);
    }
  }

  lemma {:induction false} ParseAppend(cfg: Config, a: seq<string>, b: seq<string>)
    ensures ParseLines(cfg, a + b) == ParseLines(ParseLines(cfg, a), b)
    decreases |a|
  {
    if |a| > 0 {
      ParseAppend(ParseLine(cfg, a[0]), a[1..], b);
      assert (a + b)[1..] == a[1..] + b;
    } else {
      assert a + b == b;
    }
  }

  /** The first two lines of the file set the directory and the language. */
  lemma ParseHeader(cfg: Config, directory: string, language: string)
    requires Plain(directory) && Plain(language)
    ensures ParseLines(cfg, [WorkingDirectoryKey + "=" + directory, LanguageKey + "=" + language])
            == cfg.(workingDirectory := directory, language := Some(language))
  {
    var dirLine := WorkingDirectoryKey + "=" + directory;
    var langLine := LanguageKey + "=" + language;
    ParseDirectoryLine(cfg, directory);
    var c1 := ParseLine(cfg, dirLine);
    ParseLanguageLine(c1, language);
    var c2 := ParseLine(c1, langLine);
    var two := [dirLine, langLine];
    assert two[0] == dirLine && two[1..] == [langLine];
    assert [langLine][0] == langLine && [langLine][1..] == [];
    assert ParseLines(c1, [langLine]) == ParseLines(c2, []);
  }

  /** Restricting a map to an enumeration of its keys gives the map. */
  lemma RestrictAll(m: map<string, string>, keys: seq<string>)
    requires forall k :: k in keys <==> k in m
    ensures map[] + Restrict(m, keys) == m
  {
    assert Restrict(m, keys) == m;
  }

  /** The map lines of the file, read into settings with no maps yet, set
      both maps. */
  lemma ParseMaps(cfg: Config, filters: map<string, string>, filterOrder: seq<string>,
                  taggers: map<string, string>, taggerOrder: seq<string>)
    requires cfg.filters == map[] && cfg.taggers == map[]
    requires forall k :: k in filterOrder <==> k in filters
    requires forall k :: k in taggerOrder <==> k in taggers
    requires forall k :: k in filters ==> '=' !in k && Plain(filters[k])
    requires forall k :: k in taggers ==> '=' !in k && Plain(taggers[k])
    ensures ParseLines(cfg, Entries(FilterPrefix, filters, filterOrder) + Entries(TaggerPrefix, taggers, taggerOrder))
            == cfg.(filters := filters, taggers := taggers)
  {
    var fs := Entries(FilterPrefix, filters, filterOrder);
    var ts := Entries(TaggerPrefix, taggers, taggerOrder);
    ParseAppend(cfg, fs, ts);
    ParseFilterEntries(cfg, filters, filterOrder);
    RestrictAll(filters, filterOrder);
    ParseTaggerEntries(cfg.(filters := filters), taggers, taggerOrder);
    RestrictAll(taggers, taggerOrder);
  }

  /** Writing the settings and reading them back at the next start gives
      the same settings, whatever order the maps were written in. */
  lemma SaveLoadRoundTrip(cfg: Config, filterOrder: seq<string>, taggerOrder: seq<string>)
    requires Saveable(cfg)
    requires forall k :: k in filterOrder <==> k in cfg.filters
    requires forall k :: k in taggerOrder <==> k in cfg.taggers
    ensures LoadConfig(Some(SaveConfig(cfg, filterOrder, taggerOrder))) == cfg
  {
    SaveConfigShape(cfg, filterOrder, taggerOrder);
    LoadSaved(cfg, filterOrder, taggerOrder);
  }

  /** The saved file as its two header lines and the two blocks of map lines. */
  lemma SaveConfigShape(cfg: Config, filterOrder: seq<string>, taggerOrder: seq<string>)
    requires cfg.language.Some?
    requires forall k :: k in filterOrder <==> k in cfg.filters
    requires forall k :: k in taggerOrder <==> k in cfg.taggers
    ensures SaveConfig(cfg, filterOrder, taggerOrder)
            == [WorkingDirectoryKey + "=" + cfg.workingDirectory, LanguageKey + "=" + cfg.language.value]
               + (Entries(FilterPrefix, cfg.filters, filterOrder) + Entries(TaggerPrefix, cfg.taggers, taggerOrder))
  {
  }

  lemma LoadSaved(cfg: Config, filterOrder: seq<string>, taggerOrder: seq<string>)
    requires Plain(cfg.workingDirectory) && cfg.language.Some? && Plain(cfg.language.value)
    requires forall k :: k in cfg.filters ==> '=' !in k && Plain(cfg.filters[k])
    requires forall k :: k in cfg.taggers ==> '=' !in k && Plain(cfg.taggers[k])
    requires forall k :: k in filterOrder <==> k in cfg.filters
    requires forall k :: k in taggerOrder <==> k in cfg.taggers
    ensures LoadConfig(Some([WorkingDirectoryKey + "=" + cfg.workingDirectory, LanguageKey + "=" + cfg.language.value]
                            + (Entries(FilterPrefix, cfg.filters, filterOrder) + Entries(TaggerPrefix, cfg.taggers, taggerOrder))))
            == cfg
  {
    var start := Config(DefaultWorkingDirectory, Some(DefaultLanguage), map[], map[]);
    var header := [WorkingDirectoryKey + "=" + cfg.workingDirectory, LanguageKey + "=" + cfg.language.value];
    var body := Entries(FilterPrefix, cfg.filters, filterOrder) + Entries(TaggerPrefix, cfg.taggers, taggerOrder);
    ParseAppend(start, header, body);
    ParseHeader(start, cfg.workingDirectory, cfg.language.value);
    ParseMaps(start.(workingDirectory := cfg.workingDirectory, language := cfg.language),
              cfg.filters, filterOrder, cfg.taggers, taggerOrder);
  }

  /** A session that never had a language writes `null`, and the next start
      reads that back as a language named `null`. */
  lemma NullLanguageReloads(cfg: Config, filterOrder: seq<string>, taggerOrder: seq<string>)
    requires Saveable(cfg.(language := Some("null"))) && cfg.language.None?
    requires forall k :: k in filterOrder <==> k in cfg.filters
    requires forall k :: k in taggerOrder <==> k in cfg.taggers
    ensures LoadConfig(Some(SaveConfig(cfg, filterOrder, taggerOrder))) == cfg.(language := Some("null"))
  {
    var named := cfg.(language := Some("null"));
    assert SaveConfig(cfg, filterOrder, taggerOrder) == SaveConfig(named, filterOrder, taggerOrder);
    SaveLoadRoundTrip(named, filterOrder, taggerOrder);
  }
}

=== FILE: java_string.dfy ===
/** The handful of `java.lang.String` operations the word sieve relies on,
    over strings as sequences of characters. */
module JavaString {

  /** All fields of `s` between occurrences of the separator `c`, empty ones
      included: the string is cut at every separator, so there is always at
      least one field and none of them contains `c`. */
  function Fields(s: string, c: char): (r: seq<string>)
    ensures |r| >= 1
    ensures forall i :: 0 <= i < |r| ==> c !in r[i]
  {
    if |s| == 0 then [""]
    else
      var rest := Fields(s[1..], c);
      if s[0] == c then [""] + rest
      else [[s[0]] + rest[0]] + rest[1..]
  }

  /** Glues fields back together with `c` between neighbours. */
  function Join(fs: seq<string>, c: char): (r: string)
    requires |fs| >= 1
  {
    if |fs| == 1 then fs[0] else fs[0] + [c] + Join(fs[1..], c)
  }

  /** Cutting a string into fields and gluing them back gives the string. */
  lemma {:induction false} JoinFields(s: string, c: char)
    ensures Join(Fields(s, c), c) == s
  {
    if |s| > 0 {
      JoinFields(s[1..], c);
      var rest := Fields(s[1..], c);
      if s[0] == c {
        assert ([""] + rest)[1..] == rest;
      } else {
        var fs := [[s[0]] + rest[0]] + rest[1..];
        if |rest| > 1 {
          assert fs[1..] == rest[1..];
          assert Join(rest, c) == rest[0] + [c] + Join(rest[1..], c);
        }
        assert s == [s[0]] + s[1..];
      }
    }
  }

  /** A prefix free of separators sticks to the first field. */
  lemma {:induction false} FieldsOfPrefixed(a: string, t: string, c: char)
    requires c !in a
    ensures Fields(a + t, c) == [a + Fields(t, c)[0]] + Fields(t, c)[1..]
  {
    if |a| > 0 {
      FieldsOfPrefixed(a[1..], t, c);
      var f := Fields(t, c);
      var rest := Fields(a[1..] + t, c);
      assert (a + t)[1..] == a[1..] + t;
      assert (a + t)[0] == a[0] != c;
      assert rest[0] == a[1..] + f[0] && rest[1..] == f[1..];
      assert Fields(a + t, c) == [[a[0]] + rest[0]] + rest[1..];
      assert [a[0]] + (a[1..] + f[0]) == a + f[0];
    } else {
      assert a + t == t;
      assert a + Fields(t, c)[0] == Fields(t, c)[0];
      assert Fields(t, c) == [Fields(t, c)[0]] + Fields(t, c)[1..];
    }
  }

  /** Gluing separator-free fields and cutting the result gives the fields back. */
  lemma {:induction false} FieldsJoin(fs: seq<string>, c: char)
    requires |fs| >= 1
    requires forall i :: 0 <= i < |fs| ==> c !in fs[i]
    ensures Fields(Join(fs, c), c) == fs
  {
    if |fs| == 1 {
      FieldsOfPrefixed(fs[0], "", c);
      assert fs[0] + "" == fs[0];
    } else {
      var tail := Join(fs[1..], c);
      FieldsJoin(fs[1..], c);
      assert Fields([c] + tail, c) == [""] + fs[1..] by {
        assert ([c] + tail)[1..] == tail;
      }
      FieldsOfPrefixed(fs[0], [c] + tail, c);
      assert fs[0] + [c] + tail == fs[0] + ([c] + tail);
      assert fs[0] + "" == fs[0];
      assert fs == [fs[0]] + fs[1..];
    }
  }

  /** A string without the separator is a single field. */
  lemma SingleField(s: string, c: char)
    requires c !in s
    ensures Fields(s, c) == [s]
  {
    FieldsOfPrefixed(s, "", c);
    assert s + "" == s;
  }

  /** The longest prefix of `s` free of `c`. */
  function PrefixBefore(s: string, c: char): (r: string)
  {
    if |s| == 0 || s[0] == c then "" else [s[0]] + PrefixBefore(s[1..], c)
  }

  /** The first field is the text before the first separator. */
  lemma {:induction false} FirstField(s: string, c: char)
    ensures Fields(s, c)[0] == PrefixBefore(s, c)
  {
    if |s| > 0 && s[0] != c {
      FirstField(s[1..], c);
    }
  }

  /** Every field is empty exactly when the string is made of separators only. */
  lemma {:induction false} AllFieldsEmpty(s: string, c: char)
    ensures (forall i :: 0 <= i < |Fields(s, c)| ==> Fields(s, c)[i] == "")
            <==> (forall j :: 0 <= j < |s| ==> s[j] == c)
  {
    if |s| > 0 {
      AllFieldsEmpty(s[1..], c);
      var rest := Fields(s[1..], c);
      if s[0] == c {
        assert Fields(s, c) == [""] + rest;
        if forall j :: 0 <= j < |s[1..]| ==> s[1..][j] == c {
          assert forall j :: 0 <= j < |s| ==> s[j] == c by {
            forall j | 0 <= j < |s| ensures s[j] == c {
              if j > 0 { assert s[j] == s[1..][j - 1]; }
            }
          }
        } else {
          var j :| 0 <= j < |s[1..]| && s[1..][j] != c;
          assert s[j + 1] != c;
          var i :| 0 <= i < |rest| && rest[i] != "";
          assert Fields(s, c)[i + 1] != "";
        }
      } else {
        assert Fields(s, c)[0] != "";
      }
    }
  }

  /** Drops the empty fields at the end, as Java's `split` does. */
  function DropTrailingEmpty(fs: seq<string>): (r: seq<string>)
    ensures |r| <= |fs| && r == fs[..|r|]
    ensures |r| == 0 || r[|r| - 1] != ""
    ensures forall i :: |r| <= i < |fs| ==> fs[i] == ""
  {
    if |fs| == 0 then []
    else if fs[|fs| - 1] == "" then DropTrailingEmpty(fs[..|fs| - 1])
    else fs
  }

  /** A non-empty string made only of the separator `c`. */
  ghost predicate AllSeparators(line: string, c: char)
  {
    |line| > 0 && forall j :: 0 <= j < |line| ==> line[j] == c
  }

  /** `s.split(c)` in Java, with the separator a single literal character:
      a string without the separator is returned whole (so `""` gives one
      empty field); otherwise the string is cut at every separator and the
      empty fields at the end are removed, so that a string made only of
      separators gives no field at all. */
  function Split(s: string, c: char): (r: seq<string>)
    ensures |r| <= |Fields(s, c)| && r == Fields(s, c)[..|r|]
    ensures forall i :: |r| <= i < |Fields(s, c)| ==> Fields(s, c)[i] == ""
    ensures forall i :: 0 <= i < |r| ==> c !in r[i]
    ensures |r| == 0 <==> AllSeparators(s, c)
    ensures |r| > 0 ==> r[0] == PrefixBefore(s, c)
    ensures |r| > 0 && r[|r| - 1] == "" ==> s == ""
  {
    FirstField(s, c);
    if c !in s then
      SingleField(s, c);
      assert |s| > 0 ==> s[0] != c;
      [s]
    else
      AllFieldsEmpty(s, c);
      DropTrailingEmpty(Fields(s, c))
  }

  /** When the last field is non-empty, nothing is dropped. */
  lemma SplitWholeFields(s: string, c: char)
    requires Fields(s, c)[|Fields(s, c)| - 1] != ""
    ensures Split(s, c) == Fields(s, c)
  {
    if c !in s { SingleField(s, c); }
  }

  /** Splitting separator-free, non-empty-ended fields glued with `c` gives
      the fields back: the round trip the configuration file and the ranked
      word list rely on. */
  lemma SplitJoin(fs: seq<string>, c: char)
    requires |fs| >= 1 && fs[|fs| - 1] != ""
    requires forall i :: 0 <= i < |fs| ==> c !in fs[i]
    ensures Split(Join(fs, c), c) == fs
  {
    FieldsJoin(fs, c);
    SplitWholeFields(Join(fs, c), c);
  }

  /** Java's `startsWith`. */
  predicate StartsWith(s: string, prefix: string)
  {
    |prefix| <= |s| && s[..|prefix|] == prefix
  }

  /** Java's `endsWith`. */
  predicate EndsWith(s: string, suffix: string)
  {
    |suffix| <= |s| && s[|s| - |suffix|..] == suffix
  }

  predicate IsDigit(ch: char)
  {
    '0' <= ch <= '9'
  }

  function DigitChar(d: nat): (ch: char)
    requires d < 10
    ensures IsDigit(ch) && (ch as int) - ('0' as int) == d
  {
    (('0' as int) + d) as char
  }

  /** Decimal text of a non-negative number, as Java prints an `int`. */
  function Decimal(n: nat): (r: string)
    ensures |r| >= 1
    ensures forall i :: 0 <= i < |r| ==> IsDigit(r[i])
  {
    if n < 10 then [DigitChar(n)] else Decimal(n / 10) + [DigitChar(n % 10)]
  }

  /** The value of a string of decimal digits. */
  function DecimalValue(s: string): (r: nat)
    requires forall i :: 0 <= i < |s| ==> IsDigit(s[i])
  {
    if |s| == 0 then 0
    else
      assert IsDigit(s[|s| - 1]);
      DecimalValue(s[..|s| - 1]) * 10 + ((s[|s| - 1] as int) - ('0' as int))
  }

  /** Reading back the printed number gives the number. */
  lemma {:induction false} DecimalRoundTrip(n: nat)
    ensures DecimalValue(Decimal(n)) == n
  {
    if n >= 10 {
      DecimalRoundTrip(n / 10);
      var s := Decimal(n);
      assert s[..|s| - 1] == Decimal(n / 10);
    }
  }

  /** Java's `toLowerCase` on the ASCII letters. */
  function ToLower(s: string): (r: string)
    ensures |r| == |s|
    ensures forall i :: 0 <= i < |s| ==> r[i] == (if 'A' <= s[i] <= 'Z' then (s[i] as int + 32) as char else s[i])
  {
    if |s| == 0 then ""
    else [if 'A' <= s[0] <= 'Z' then (s[0] as int + 32) as char else s[0]] + ToLower(s[1..])
  }
}

=== FILE: pipeline.dfy ===
/** The four actions of the word sieve run against the snapshot history:
    the checks made before anything starts, the line loops with their
    cancellation point, the tagger command, and the resulting history. */
module Pipeline {
  import opened Wrappers
  import opened JavaString
  import opened WordStats
  import opened Transforms
  import opened Snapshots
  import opened Configuration

  /** The host as the program classifies it from the `os.name` property. */
  datatype Platform = Unix | Windows | Unrecognized

  /** When the user pressed Cancel: never, or once `lines` lines had been
      processed (the loop then stops at its next test of the flag). */
  datatype Cancel = Never | After(lines: nat)

  datatype Action = StripTranslations | Filter | CountSortWithStats | CountSortWithoutStats

  /** The world around the program: the platform, the process's working
      directory, the files on disk by absolute path, and the lines each
      tagger command line prints (a command missing here cannot start). */
  datatype Env = Env(platform: Platform, workDir: string, disk: map<string, Doc>, taggerRuns: map<string, Doc>)

  const TmpDir := "tmp"
  const TmpPrefix := "tmp"

  /** The lines the loop processes before it observes the cancellation. */
  function Processed(lines: seq<string>, cancel: Cancel): (r: seq<string>)
    ensures r <= lines
    ensures cancel.Never? ==> r == lines
    ensures cancel.After? ==> |r| == if cancel.lines < |lines| then cancel.lines else |lines|
    ensures forall i :: 0 <= i < |r| ==> r[i] == lines[i]
  {
    match cancel
    case Never => lines
    case After(k) => if k < |lines| then lines[..k] else lines
  }

  /** The absolute path of the document being processed. */
  function CurrentPath(h: History, workDir: string): (r: string)
  {
    match h.current
    case Origin => h.originPath
    case Tmp(i) => workDir + "/" + TmpDir + "/" + TmpPrefix + Decimal(i)
  }

  /** The command line that starts the tagger on `path`. On Unix it is the
      configured tagger of the language, or the text `null` when there is
      none; on Windows a `tag-<language>` script, whatever is configured. */
  function TaggerCommand(platform: Platform, language: string, taggers: map<string, string>, path: string): (r: Option<string>)
    ensures r.None? <==> platform.Unrecognized?
    ensures r.Some? ==> EndsWith(r.value, " " + path)
  {
    match platform
    case Unix =>
      var tagger := if language in taggers then taggers[language] else "null";
      Some(tagger + " " + path)
    case Windows => Some("cmd.exe /c tag-" + ToLower(language) + " " + path)
    case Unrecognized => None
  }

  /** On Windows the configured taggers play no part. */
  lemma WindowsIgnoresTaggers(language: string, t1: map<string, string>, t2: map<string, string>, path: string)
    ensures TaggerCommand(Windows, language, t1, path) == TaggerCommand(Windows, language, t2, path)
    ensures TaggerCommand(Windows, language, t1, path).value == "cmd.exe /c tag-" + ToLower(language) + " " + path
  {
  }

  /** On Unix a configured tagger is run on the path. */
  lemma ConfiguredUnixTagger(language: string, taggers: map<string, string>, path: string)
    requires language in taggers
    ensures TaggerCommand(Unix, language, taggers, path) == Some(taggers[language] + " " + path)
  {
  }

  /** On Unix an unconfigured tagger gives the command `null <path>`. */
  lemma UnconfiguredUnixTagger(language: string, taggers: map<string, string>, path: string)
    requires language !in taggers
    ensures TaggerCommand(Unix, language, taggers, path) == Some("null " + path)
  {
    assert "null" + " " + path == "null " + path;
  }

  /** "Strip Anki translations" on the current document's lines. */
  function RunStrip(doc: Doc, cancel: Cancel): (o: Outcome)
    ensures !o.Rejected?
    ensures o.Done? <==> cancel.Never? && forall i :: 0 <= i < |doc| ==> !AllSeparators(doc[i], '\t')
    ensures o.Done? ==> |o.output| == |doc| && forall i :: 0 <= i < |doc| ==> o.output[i] == PrefixBefore(doc[i], '\t')
    ensures o.Cancelled? ==> && cancel.After? && |o.partial| == |Processed(doc, cancel)|
                             && forall i :: 0 <= i < |o.partial| ==> o.partial[i] == PrefixBefore(doc[i], '\t')
    ensures o.Failed? <==> exists i :: 0 <= i < |Processed(doc, cancel)| && AllSeparators(doc[i], '\t')
    ensures o.Failed? ==> && o.fault == NoField && o.written.Some?
                          && |o.written.value| < |Processed(doc, cancel)|
                          && AllSeparators(doc[|o.written.value|], '\t')
                          && (forall i :: 0 <= i < |o.written.value| ==> !AllSeparators(doc[i], '\t'))
                          && forall i :: 0 <= i < |o.written.value| ==> o.written.value[i] == PrefixBefore(doc[i], '\t')
  {
    var lines := Processed(doc, cancel);
    match StripRun(lines)
    case Stopped(_, out) => Failed(NoField, Some(out))
    case Finished(out) => if cancel.After? then Cancelled(out) else Done(out)
  }

  /** "Filter" on the current document's lines, against the loaded word list. */
  function RunFilter(doc: Doc, filterList: seq<string>, cancel: Cancel): (o: Outcome)
    ensures o.Done? || o.Cancelled?
    ensures o.Done? <==> cancel.Never?
    ensures o.Done? ==> o.output == FilterLines(doc, filterList)
    ensures o.Cancelled? ==> o.partial == FilterLines(Processed(doc, cancel), filterList)
  {
    var out := FilterLines(Processed(doc, cancel), filterList);
    if cancel.After? then Cancelled(out) else Done(out)
  }

  /** Count&Sort on the tagger's output lines. The output file is opened
      before the loop, so an exception in the loop leaves it empty. */
  function RunCountSort(taggerLines: seq<string>, withStats: bool, cancel: Cancel): (o: Outcome)
    ensures !o.Rejected?
    ensures o.Failed? <==> exists i :: 0 <= i < |Processed(taggerLines, cancel)| && AllSeparators(taggerLines[i], '\t')
    ensures o.Failed? ==> o.fault == NoField && o.written == Some([])
    ensures o.Done? <==> cancel.Never? && forall i :: 0 <= i < |taggerLines| ==> !AllSeparators(taggerLines[i], '\t')
    ensures o.Done? ==> exists words ::
              && |words| == |taggerLines|
              && (forall i :: 0 <= i < |words| ==> TaggerWord(taggerLines[i]) == Some(words[i]))
              && o.output == CountSortLines(words, withStats)
    ensures o.Cancelled? ==> && cancel.After? && exists words ::
              && |words| == |Processed(taggerLines, cancel)|
              && (forall i :: 0 <= i < |words| ==> TaggerWord(taggerLines[i]) == Some(words[i]))
              && o.partial == CountSortLines(words, withStats)
  {
    match TaggerWords(Processed(taggerLines, cancel))
    case Stopped(_, _) => Failed(NoField, Some([]))
    case Finished(words) =>
      var out := CountSortLines(words, withStats);
      if cancel.After? then Cancelled(out) else Done(out)
  }

  /** Count&Sort as a whole: a path with a space is refused before anything
      happens; the language check and the start of the tagger come after the
      cursor has moved. */
  function CountSort(h: History, cfg: Config, env: Env, withStats: bool, cancel: Cancel): (o: Outcome)
    ensures o.Rejected? <==> ' ' in CurrentPath(h, env.workDir)
    ensures o.Rejected? ==> o.fault == SpaceInPath
    ensures !o.Rejected? && cfg.language.None? ==> o == Failed(LanguageNotSelected, None)
    ensures !o.Rejected? && cfg.language.Some? && env.platform.Unrecognized? ==> o == Failed(UnrecognizedPlatform, None)
  {
    var path := CurrentPath(h, env.workDir);
    if ' ' in path then Rejected(SpaceInPath)
    else if cfg.language.None? then Failed(LanguageNotSelected, None)
    else match TaggerCommand(env.platform, cfg.language.value, cfg.taggers, path)
      case None => Failed(UnrecognizedPlatform, None)
      case Some(command) =>
        if command !in env.taggerRuns then Failed(TaggerNotStarted, None)
        else RunCountSort(env.taggerRuns[command], withStats, cancel)
  }

  /** What an action does, given the settings and the world. */
  function Execute(h: History, cfg: Config, env: Env, action: Action, cancel: Cancel): (o: Outcome)
    ensures action.StripTranslations? ==> !o.Rejected?
    ensures action.Filter? ==> (o.Rejected? <==> cfg.language.None? || cfg.language.value !in cfg.filters)
  {
    match action
    case StripTranslations =>
      (match Content(h, h.current)
       case None => Failed(FileNotFound, None)
       case Some(doc) => RunStrip(doc, cancel))
    case Filter =>
      if cfg.language.None? then Rejected(LanguageNotSelected)
      else if cfg.language.value !in cfg.filters then Rejected(FilterNotSpecified)
      else (match Content(h, h.current)
        case None => Failed(FileNotFound, None)
        case Some(doc) =>
          var listPath := cfg.filters[cfg.language.value];
          if listPath !in env.disk then Failed(FileNotFound, None)
          else RunFilter(doc, env.disk[listPath], cancel))
    case CountSortWithStats => CountSort(h, cfg, env, true, cancel)
    case CountSortWithoutStats => CountSort(h, cfg, env, false, cancel)
  }

  /** Runs an action and records it in the history. */
  function Perform(h: History, cfg: Config, env: Env, action: Action, cancel: Cancel): (r: History)
    requires Valid(h)
    ensures Valid(r)
    ensures Consistent(h) && !Execute(h, cfg, env, action, cancel).Failed? ==> Consistent(r)
  {
    Apply(h, Execute(h, cfg, env, action, cancel))
  }

  /** Filter without a selected language, or without a word list for it,
      is refused before the cursor moves. */
  lemma FilterNeedsConfiguration(h: History, cfg: Config, env: Env, cancel: Cancel)
    requires Valid(h)
    requires cfg.language.None? || cfg.language.value !in cfg.filters
    ensures Perform(h, cfg, env, Filter, cancel) == h
  {
  }

  /** Count&Sort on a document whose path has a space is refused before the
      cursor moves. */
  lemma CountSortNeedsPlainPath(h: History, cfg: Config, env: Env, withStats: bool, cancel: Cancel)
    requires Valid(h)
    requires ' ' in CurrentPath(h, env.workDir)
    ensures Perform(h, cfg, env, if withStats then CountSortWithStats else CountSortWithoutStats, cancel) == h
  {
    var action := if withStats then CountSortWithStats else CountSortWithoutStats;
    assert Execute(h, cfg, env, action, cancel) == CountSort(h, cfg, env, withStats, cancel);
  }

  /** Count&Sort without a selected language throws after the cursor has
      moved: the cursor stays one ahead of the unchanged current document. */
  lemma CountSortWithoutLanguage(h: History, cfg: Config, env: Env, withStats: bool, cancel: Cancel)
    requires Valid(h)
    requires ' ' !in CurrentPath(h, env.workDir) && cfg.language.None?
    ensures var r := Perform(h, cfg, env, if withStats then CountSortWithStats else CountSortWithoutStats, cancel);
            r.cursor == h.cursor + 1 && r.current == h.current
  {
    var action := if withStats then CountSortWithStats else CountSortWithoutStats;
    assert Execute(h, cfg, env, action, cancel) == CountSort(h, cfg, env, withStats, cancel);
  }

  /** A cancelled Filter leaves the cursor and the current document as they
      were, though its partial file stays on disk. */
  lemma CancelledFilter(h: History, cfg: Config, env: Env, k: nat)
    requires Valid(h)
    requires cfg.language.Some? && cfg.language.value in cfg.filters
    requires Content(h, h.current).Some? && cfg.filters[cfg.language.value] in env.disk
    ensures var r := Perform(h, cfg, env, Filter, After(k));
            && r.cursor == h.cursor && r.current == h.current
            && Content(r, r.current) == Content(h, h.current)
            && r.cursor + 1 in r.files
  {
    FilterRuns(h, cfg, env, After(k));
  }

  /** A configured Filter on a document and word list that are on disk runs
      the filter loop; when either file is missing it fails after the cursor
      has moved. */
  lemma FilterRuns(h: History, cfg: Config, env: Env, cancel: Cancel)
    requires cfg.language.Some? && cfg.language.value in cfg.filters
    ensures Content(h, h.current).Some? && cfg.filters[cfg.language.value] in env.disk ==>
              Execute(h, cfg, env, Filter, cancel)
              == RunFilter(Content(h, h.current).value, env.disk[cfg.filters[cfg.language.value]], cancel)
    ensures Content(h, h.current).None? ==> Execute(h, cfg, env, Filter, cancel) == Failed(FileNotFound, None)
    ensures cfg.filters[cfg.language.value] !in env.disk ==> Execute(h, cfg, env, Filter, cancel) == Failed(FileNotFound, None)
  {
  }

  /** Strip runs the strip loop on the current document, or fails when the
      document's file is missing. */
  lemma StripRuns(h: History, cfg: Config, env: Env, cancel: Cancel)
    ensures Content(h, h.current).Some? ==>
              Execute(h, cfg, env, StripTranslations, cancel) == RunStrip(Content(h, h.current).value, cancel)
    ensures Content(h, h.current).None? ==>
              Execute(h, cfg, env, StripTranslations, cancel) == Failed(FileNotFound, None)
  {
  }

  /** A Strip that throws leaves the cursor one past the unchanged current
      document, and the lines stripped before the failing one in that slot. */
  lemma FailedStrip(h: History, cfg: Config, env: Env, cancel: Cancel)
    requires Valid(h) && Content(h, h.current).Some?
    requires exists i :: 0 <= i < |Processed(Content(h, h.current).value, cancel)|
                         && AllSeparators(Content(h, h.current).value[i], '\t')
    ensures var r := Perform(h, cfg, env, StripTranslations, cancel);
            var doc := Content(h, h.current).value;
            && r.cursor == h.cursor + 1 && r.current == h.current
            && h.cursor + 1 in r.files && |r.files[h.cursor + 1]| < |doc|
            && AllSeparators(doc[|r.files[h.cursor + 1]|], '\t')
            && (forall i :: 0 <= i < |r.files[h.cursor + 1]| ==> !AllSeparators(doc[i], '\t'))
            && forall i :: 0 <= i < |r.files[h.cursor + 1]| ==> r.files[h.cursor + 1][i] == PrefixBefore(doc[i], '\t')
  {
    StripRuns(h, cfg, env, cancel);
  }

  /** A cancelled Strip keeps the cursor and the current document, and
      leaves the lines it stripped in the next slot. */
  lemma CancelledStrip(h: History, cfg: Config, env: Env, k: nat)
    requires Valid(h) && Content(h, h.current).Some?
    requires forall i :: 0 <= i < |Processed(Content(h, h.current).value, After(k))|
                         ==> !AllSeparators(Content(h, h.current).value[i], '\t')
    ensures var r := Perform(h, cfg, env, StripTranslations, After(k));
            var doc := Content(h, h.current).value;
            && r.cursor == h.cursor && r.current == h.current
            && Content(r, r.current) == Content(h, h.current)
            && h.cursor + 1 in r.files && |r.files[h.cursor + 1]| == |Processed(doc, After(k))|
            && forall i :: 0 <= i < |r.files[h.cursor + 1]| ==> r.files[h.cursor + 1][i] == PrefixBefore(doc[i], '\t')
  {
    StripRuns(h, cfg, env, After(k));
  }

  /** A Count&Sort that passes its checks runs the tagger command for the
      language and counts what it prints, or fails when the command cannot
      be started. */
  lemma CountSortRuns(h: History, cfg: Config, env: Env, withStats: bool, cancel: Cancel)
    requires ' ' !in CurrentPath(h, env.workDir)
    requires cfg.language.Some? && !env.platform.Unrecognized?
    ensures var command := TaggerCommand(env.platform, cfg.language.value, cfg.taggers, CurrentPath(h, env.workDir)).value;
            Execute(h, cfg, env, if withStats then CountSortWithStats else CountSortWithoutStats, cancel)
            == if command in env.taggerRuns then RunCountSort(env.taggerRuns[command], withStats, cancel)
               else Failed(TaggerNotStarted, None)
  {
    var action := if withStats then CountSortWithStats else CountSortWithoutStats;
    assert Execute(h, cfg, env, action, cancel) == CountSort(h, cfg, env, withStats, cancel);
  }

  /** Stripping a consistent history's document to the end makes the
      stripped lines current, one per input line; one undo brings back the
      document stripped. */
  lemma StripThenUndo(h: History, cfg: Config, env: Env)
    requires Consistent(h)
    requires forall i :: 0 <= i < |Content(h, h.current).value| ==> !AllSeparators(Content(h, h.current).value[i], '\t')
    ensures var r := Perform(h, cfg, env, StripTranslations, Never);
            var doc := Content(h, h.current).value;
            && Consistent(r) && r.cursor == h.cursor + 1
            && Content(r, r.current).Some? && |Content(r, r.current).value| == |doc|
            && (forall i :: 0 <= i < |doc| ==> Content(r, r.current).value[i] == PrefixBefore(doc[i], '\t'))
            && Undo(r).current == h.current && Content(Undo(r), Undo(r).current) == Content(h, h.current)
  {
    CurrentExists(h);
    var r := Perform(h, cfg, env, StripTranslations, Never);
    if h.cursor >= 0 {
      var c: nat := h.cursor;
      assert c in h.files;
    }
  }

  /** What Count&Sort without stats prints: every word read exactly once,
      by decreasing number of occurrences, equally frequent words in order of
      first occurrence. */
  lemma CountSortWordsOutput(words: seq<string>)
    ensures var out := CountSortLines(words, false);
            && (forall i, j :: 0 <= i < j < |out| ==> out[i] != out[j])
            && (forall w :: w in words <==> w in out)
            && (forall i, j :: 0 <= i < j < |out| ==> multiset(words)[out[i]] >= multiset(words)[out[j]])
            && (forall i, j :: 0 <= i < j < |out| && multiset(words)[out[i]] == multiset(words)[out[j]]
                  ==> FirstIndex(words, out[i]) < FirstIndex(words, out[j]))
  {
    RankedStatistics(words);
    var r := Rank(Accumulate(words));
    var out := Words(r);
    forall i, j | 0 <= i < j < |out| ensures multiset(words)[out[i]] >= multiset(words)[out[j]] {
      assert r[i].occurrences >= r[j].occurrences;
    }
  }

  /** What Count&Sort with stats prints: line i is rank i + 1, the i-th word
      of the output without stats, and that word's number of occurrences. */
  lemma CountSortStatsOutput(words: seq<string>)
    ensures var plain := CountSortLines(words, false);
            var stats := CountSortLines(words, true);
            && |stats| == |plain|
            && forall i :: 0 <= i < |stats| ==> stats[i] == StatLine(i + 1, Stat(plain[i], multiset(words)[plain[i]]))
  {
    RankedStatistics(words);
    var r := Rank(Accumulate(words));
    assert forall i :: 0 <= i < |r| ==> r[i] == Stat(Words(r)[i], multiset(words)[Words(r)[i]]);
  }
}

=== FILE: snapshots.dfy ===
/** The snapshot history: the originally loaded document, the numbered
    temporary files `tmp0`, `tmp1`, ... written by the operations, the
    cursor `currentTmp` and the document currently being processed. */
module Snapshots {
  import opened Wrappers

  /** A text file as its lines. */
  type Doc = seq<string>

  /** The document being processed: the loaded one or temporary file `tmp<i>`. */
  datatype DocRef = Origin | Tmp(index: nat)

  datatype Fault =
    | LanguageNotSelected
    | FilterNotSpecified
    | SpaceInPath
    | UnrecognizedPlatform
    | FileNotFound
    | TaggerNotStarted
    | NoField

  /** What one operation did, as far as the history is concerned. */
  datatype Outcome =
      /** Ran to the end; `output` is the new snapshot. */
    | Done(output: Doc)
      /** Stopped by the user; `partial` is left behind in the next temporary file. */
    | Cancelled(partial: Doc)
      /** Threw after advancing the cursor, having written `written` if anything. */
    | Failed(fault: Fault, written: Option<Doc>)
      /** Refused before touching the cursor or any file. */
    | Rejected(fault: Fault)

  datatype History = History(
    originPath: string,
    origin: Doc,
    files: map<nat, Doc>,
    cursor: int,
    current: DocRef,
    undoEnabled: bool)

  /** What every reachable history satisfies, failures included. */
  ghost predicate Valid(h: History)
  {
    && h.cursor >= -1
    && (h.undoEnabled ==> h.cursor >= 0)
    && (h.current.Tmp? ==> h.current.index <= h.cursor)
  }

  /** The cursor names the current document: `tmp<cursor>`, or the loaded
      document at -1. Every snapshot up to the cursor exists, and undo is
      offered exactly when there is one to go back to. */
  ghost predicate Consistent(h: History)
  {
    && Valid(h)
    && h.undoEnabled == (h.cursor >= 0)
    && h.current == (if h.cursor >= 0 then Tmp(h.cursor) else Origin)
    && forall i: nat :: i <= h.cursor ==> i in h.files
  }

  /** The lines of a document, or None when its file does not exist. */
  function Content(h: History, d: DocRef): (r: Option<Doc>)
  {
    match d
    case Origin => Some(h.origin)
    case Tmp(i) => if i in h.files then Some(h.files[i]) else None
  }

  /** Load: the chosen file becomes both the original and the current
      document, the cursor goes back to -1 and undo is disabled. Temporary
      files from earlier work stay on disk. */
  function Load(h: History, path: string, doc: Doc): (r: History)
    ensures r.cursor == -1 && r.current == Origin && !r.undoEnabled
    ensures Content(r, r.current) == Some(doc) && r.originPath == path
    ensures r.files == h.files
    ensures Consistent(r)
  {
    History(path, doc, h.files, -1, Origin, false)
  }

  /** Records an operation's outcome. Every operation that gets past its
      checks first advances the cursor; a finished one makes the new file
      current and enables undo; a cancelled one moves the cursor back but
      leaves its partial file; one that threw leaves the cursor advanced. */
  function Apply(h: History, o: Outcome): (r: History)
    requires Valid(h)
    ensures Valid(r)
    ensures o.Done? ==> && r.cursor == h.cursor + 1 && r.current == Tmp(h.cursor + 1)
                        && Content(r, r.current) == Some(o.output) && r.undoEnabled
    ensures o.Cancelled? ==> && r.cursor == h.cursor && r.current == h.current
                             && Content(r, r.current) == Content(h, h.current) && r.undoEnabled == h.undoEnabled
    ensures o.Failed? ==> && r.cursor == h.cursor + 1 && r.current == h.current
                          && Content(r, r.current) == Content(h, h.current) && r.undoEnabled == h.undoEnabled
    ensures o.Rejected? ==> r == h
    ensures r.origin == h.origin && r.originPath == h.originPath
    ensures forall i: nat :: i <= h.cursor && i in h.files ==> i in r.files && r.files[i] == h.files[i]
    ensures Consistent(h) && !o.Failed? ==> Consistent(r)
  {
    match o
    case Rejected(_) => h
    case Done(out) =>
      var next := h.cursor + 1;
      h.(files := h.files[next := out], cursor := next, current := Tmp(next), undoEnabled := true)
    case Cancelled(partial) =>
      h.(files := h.files[h.cursor + 1 := partial])
    case Failed(_, written) =>
      var next := h.cursor + 1;
      match written
      case None => h.(cursor := next)
      case Some(out) => h.(files := h.files[next := out], cursor := next)
  }

  /** "Undo last action", which can only be chosen while enabled: the cursor
      steps back and names the previous snapshot, or the loaded document once
      it drops below 0, where undo is disabled again. */
  function Undo(h: History): (r: History)
    requires Valid(h)
    ensures Valid(r)
    ensures !h.undoEnabled ==> r == h
    ensures h.undoEnabled ==> && r.cursor == h.cursor - 1
                              && r.current == (if h.cursor >= 1 then Tmp(h.cursor - 1) else Origin)
                              && r.undoEnabled == (h.cursor >= 1)
    ensures r.files == h.files && r.origin == h.origin && r.originPath == h.originPath
    ensures Consistent(h) ==> Consistent(r)
  {
    if !h.undoEnabled then h
    else
      var prev := h.cursor - 1;
      if prev >= 0 then h.(cursor := prev, current := Tmp(prev))
      else h.(cursor := prev, current := Origin, undoEnabled := false)
  }

  /** In a consistent history the current document is on disk. */
  lemma CurrentExists(h: History)
    requires Consistent(h)
    ensures Content(h, h.current).Some?
  {
    if h.cursor >= 0 {
      var i: nat := h.cursor;
      assert i in h.files;
    }
  }

  /** A run of operations that all finish. */
  function CommitAll(h: History, outputs: seq<Doc>): (r: History)
    requires Valid(h)
    ensures Valid(r)
    decreases |outputs|
  {
    if |outputs| == 0 then h else CommitAll(Apply(h, Done(outputs[0])), outputs[1..])
  }

  function UndoTimes(h: History, n: nat): (r: History)
    requires Valid(h)
    ensures Valid(r)
  {
    if n == 0 then h else Undo(UndoTimes(h, n - 1))
  }

  /** After n finished operations the cursor has advanced by n and the last
      output is current; earlier snapshots are untouched. */
  lemma {:induction false} CommitAllAdvances(h: History, outputs: seq<Doc>)
    requires Consistent(h)
    ensures Consistent(CommitAll(h, outputs))
    ensures CommitAll(h, outputs).cursor == h.cursor + |outputs|
    ensures |outputs| > 0 ==> Content(CommitAll(h, outputs), CommitAll(h, outputs).current) == Some(outputs[|outputs| - 1])
    ensures CommitAll(h, outputs).origin == h.origin
    ensures forall i: nat :: i <= h.cursor ==> i in CommitAll(h, outputs).files && CommitAll(h, outputs).files[i] == h.files[i]
    decreases |outputs|
  {
    if |outputs| > 0 {
      var h1 := Apply(h, Done(outputs[0]));
      CommitAllAdvances(h1, outputs[1..]);
      if |outputs| > 1 {
        assert outputs[1..][|outputs[1..]| - 1] == outputs[|outputs| - 1];
      }
    }
  }

  /** n undos after n finished operations come back to where the operations
      started: same cursor, same current document with the same lines, undo
      enabled as before. */
  lemma {:induction false} UndoReversesCommits(h: History, outputs: seq<Doc>)
    requires Consistent(h)
    ensures var r := UndoTimes(CommitAll(h, outputs), |outputs|);
            && Consistent(r) && r.cursor == h.cursor && r.current == h.current
            && r.undoEnabled == h.undoEnabled && r.origin == h.origin
            && Content(r, r.current) == Content(h, h.current)
            && forall i: nat :: i <= h.cursor ==> i in r.files && r.files[i] == h.files[i]
    decreases |outputs|
  {
    if |outputs| > 0 {
      var h1 := Apply(h, Done(outputs[0]));
      UndoReversesCommits(h1, outputs[1..]);
      var mid := UndoTimes(CommitAll(h1, outputs[1..]), |outputs| - 1);
      assert CommitAll(h, outputs) == CommitAll(h1, outputs[1..]);
      assert UndoTimes(CommitAll(h, outputs), |outputs|) == Undo(mid);
      var r := Undo(mid);
      if h.cursor >= 0 {
        var c: nat := h.cursor;
        assert c in h.files;
        assert r.current == Tmp(c);
      }
    }
  }

  /** Loading a document, running n operations to the end and undoing n
      times shows the loaded document again with undo disabled, and one more
      undo changes nothing. */
  lemma BackToOrigin(h: History, path: string, doc: Doc, outputs: seq<Doc>)
    ensures var r := UndoTimes(CommitAll(Load(h, path, doc), outputs), |outputs|);
            && r.cursor == -1 && r.current == Origin && !r.undoEnabled
            && Content(r, r.current) == Some(doc)
            && Undo(r) == r
  {
    UndoReversesCommits(Load(h, path, doc), outputs);
  }

  /** After an undo, the next finished operation overwrites the snapshot
      that was undone: there is no redo. */
  lemma CommitAfterUndo(h: History, out: Doc)
    requires Valid(h) && h.undoEnabled
    ensures var r := Apply(Undo(h), Done(out));
            && r.cursor == h.cursor && r.current == Tmp(h.cursor)
            && Content(r, r.current) == Some(out)
  {
  }

  /** Failure keeps the cursor advanced: after a load, an operation that
      throws having written `partial` to `tmp0`, then one that finishes, a
      single undo shows the leftover `tmp0` rather than the loaded document,
      and only a second undo reaches the loaded document. */
  lemma UndoAfterFailure(h: History, path: string, doc: Doc, partial: Doc, out: Doc, f: Fault)
    ensures var h1 := Apply(Load(h, path, doc), Failed(f, Some(partial)));
            var h2 := Apply(h1, Done(out));
            && !Consistent(h1)
            && h2.cursor == 1 && h2.current == Tmp(1)
            && Undo(h2).current == Tmp(0) && Content(Undo(h2), Undo(h2).current) == Some(partial)
            && Undo(Undo(h2)).current == Origin && !Undo(Undo(h2)).undoEnabled
  {
  }

  /** Starting from a consistent history, an operation that throws always
      leaves it inconsistent: the cursor runs ahead of the current document. */
  lemma FailureBreaksConsistency(h: History, f: Fault, written: Option<Doc>)
    requires Consistent(h)
    ensures !Consistent(Apply(h, Failed(f, written)))
  {
  }
}

=== FILE: transforms.dfy ===
/** The per-line transformations of the word sieve: stripping translations,
    filtering against a word list, extracting the word from tagger output and
    printing the ranked statistics, plus the preview of a document. */
module Transforms {
  import opened Wrappers
  import opened JavaString
  import opened WordStats

  /** The result of running a line loop to the end, or of the exception it
      raised at line `at` after writing `output`. */
  datatype Run = Finished(output: seq<string>) | Stopped(at: nat, output: seq<string>)

  // ---------------------------------------------------------------- Strip

  /** One line of "Strip Anki translations": the first tab-separated field.
      A line made of tabs only has no field, and reading one throws. */
  function StripLine(line: string): (r: Option<string>)
    ensures r.None? <==> AllSeparators(line, '\t')
    ensures r.Some? ==> r.value == PrefixBefore(line, '\t')
  {
    var fields := Split(line, '\t');
    if |fields| == 0 then None else Some(fields[0])
  }

  /** A line without a tab passes through unchanged. */
  lemma {:induction false} StripWithoutTab(line: string)
    requires '\t' !in line
    ensures StripLine(line) == Some(line)
  {
    if |line| > 0 {
      assert line[0] != '\t';
      StripWithoutTab(line[1..]);
      assert line == [line[0]] + line[1..];
    }
  }

  /** A word and its translation: the translation goes. */
  lemma StripExample()
    ensures StripLine("hello\tcześć") == Some("hello")
  {
    var fs := ["hello", "cześć"];
    assert Join(fs[1..], '\t') == "cześć";
    assert Join(fs, '\t') == "hello\tcześć";
    SplitJoin(fs, '\t');
  }

  /** The Strip loop over every line: one output line per input line, or the
      exception at the first line of tabs only, with the lines before it
      already written. */
  function StripRun(lines: seq<string>): (r: Run)
    ensures r.Finished? <==> forall i :: 0 <= i < |lines| ==> !AllSeparators(lines[i], '\t')
    ensures r.Finished? ==> |r.output| == |lines|
    ensures r.Stopped? ==> r.at < |lines| && |r.output| == r.at && AllSeparators(lines[r.at], '\t')
    ensures r.Stopped? ==> forall i :: 0 <= i < r.at ==> !AllSeparators(lines[i], '\t')
    ensures forall i :: 0 <= i < |r.output| ==> r.output[i] == PrefixBefore(lines[i], '\t')
  {
    if |lines| == 0 then Finished([])
    else match StripLine(lines[0])
      case None => Stopped(0, [])
      case Some(s) =>
        match StripRun(lines[1..])
        case Finished(out) => Finished([s] + out)
        case Stopped(at, out) => Stopped(at + 1, [s] + out)
  }

  // --------------------------------------------------------------- Filter

  /** The key of a line for Filter: the line split on single spaces gives the
      key as its only field, or as the middle one of three; any other line
      has no key. */
  function FilterKey(line: string): (r: Option<string>)
    ensures r.Some? ==> ' ' !in r.value
    ensures r.Some? ==> r.value in Fields(line, ' ')
  {
    var f := Split(line, ' ');
    if |f| == 1 then Some(f[0]) else if |f| == 3 then Some(f[1]) else None
  }

  /** A line survives Filter when it has a key and the key is not listed. */
  predicate Survives(line: string, filterList: seq<string>)
  {
    FilterKey(line).Some? && FilterKey(line).value !in filterList
  }

  /** The order-preserving sub-list relation. */
  ghost predicate IsSubsequence(a: seq<string>, b: seq<string>)
    decreases |b|
  {
    |a| == 0 || (|b| > 0 && ((a[0] == b[0] && IsSubsequence(a[1..], b[1..])) || IsSubsequence(a, b[1..])))
  }

  /** The Filter loop: the surviving lines, verbatim and in order, every
      occurrence of a surviving line kept and no other line. */
  function FilterLines(lines: seq<string>, filterList: seq<string>): (r: seq<string>)
    ensures IsSubsequence(r, lines)
    ensures forall i :: 0 <= i < |r| ==> Survives(r[i], filterList)
    ensures forall l :: multiset(r)[l] == if Survives(l, filterList) then multiset(lines)[l] else 0
  {
    if |lines| == 0 then []
    else
      var rest := FilterLines(lines[1..], filterList);
      assert lines == [lines[0]] + lines[1..];
      if Survives(lines[0], filterList) then
        assert ([lines[0]] + rest)[1..] == rest;
        [lines[0]] + rest
      else rest
  }

  /** A line without spaces is its own key. */
  lemma KeyOfWord(w: string)
    requires ' ' !in w
    ensures FilterKey(w) == Some(w)
  {
    SingleField(w, ' ');
  }

  /** Of three space-separated non-empty words, the middle one is the key. */
  lemma KeyOfTriple(a: string, b: string, c: string)
    requires a != "" && b != "" && c != ""
    requires ' ' !in a && ' ' !in b && ' ' !in c
    ensures FilterKey(a + " " + b + " " + c) == Some(b)
  {
    var fs := [a, b, c];
    assert Join(fs[2..], ' ') == c;
    assert Join(fs[1..], ' ') == b + " " + c;
    assert Join(fs, ' ') == a + " " + b + " " + c;
    SplitJoin(fs, ' ');
  }

  /** The key of a line made of space-free fields, the last one non-empty:
      the only field, or the middle one of three. With two fields, or four
      or more, the line has no key and Filter drops it. */
  lemma FilterKeyOfFields(ws: seq<string>)
    requires |ws| >= 1 && ws[|ws| - 1] != ""
    requires forall i :: 0 <= i < |ws| ==> ' ' !in ws[i]
    ensures FilterKey(Join(ws, ' ')) == if |ws| == 1 then Some(ws[0]) else if |ws| == 3 then Some(ws[1]) else None
    ensures |ws| != 1 && |ws| != 3 ==> forall filterList :: !Survives(Join(ws, ' '), filterList)
  {
    SplitJoin(ws, ' ');
  }

  /** Filter looks at one line at a time. */
  lemma FilterLinesCons(line: string, rest: seq<string>, filterList: seq<string>)
    ensures FilterLines([line] + rest, filterList)
            == (if Survives(line, filterList) then [line] else []) + FilterLines(rest, filterList)
  {
    assert ([line] + rest)[1..] == rest;
  }

  lemma ExampleKeyOfTriple()
    ensures Survives("1 cat 2", ["the", "a"])
  {
    KeyOfTriple("1", "cat", "2");
    assert "1" + " " + "cat" + " " + "2" == "1 cat 2";
  }

  lemma ExampleKeysOfWords()
    ensures Survives("dog", ["the", "a"]) && !Survives("the", ["the", "a"])
  {
    KeyOfWord("dog");
    KeyOfWord("the");
  }

  /** With the word list `the`, `a`, the lines `the`, `1 cat 2`, `dog`
      filter to `1 cat 2`, `dog`. */
  lemma FilterExample()
    ensures FilterLines(["the", "1 cat 2", "dog"], ["the", "a"]) == ["1 cat 2", "dog"]
  {
    ExampleKeyOfTriple();
    ExampleKeysOfWords();
    var list := ["the", "a"];
    FilterLinesCons("the", ["1 cat 2", "dog"], list);
    FilterLinesCons("1 cat 2", ["dog"], list);
    FilterLinesCons("dog", [], list);
  }

  // ----------------------------------------------------------- Count&Sort

  /** The word of a tagger output line: its last tab-separated field after
      the empty trailing fields are dropped. A line of tabs only has none. */
  function TaggerWord(line: string): (r: Option<string>)
    ensures r.None? <==> AllSeparators(line, '\t')
    ensures r.Some? ==> '\t' !in r.value && (r.value == "" ==> line == "")
    ensures r.Some? ==> exists j :: 0 <= j < |Fields(line, '\t')| && Fields(line, '\t')[j] == r.value
                          && forall k :: j < k < |Fields(line, '\t')| ==> Fields(line, '\t')[k] == ""
  {
    var fields := Split(line, '\t');
    if |fields| == 0 then None
    else
      assert Fields(line, '\t')[|fields| - 1] == fields[|fields| - 1];
      Some(fields[|fields| - 1])
  }

  /** The Count&Sort read loop: the words of all lines, or the exception at
      the first line of tabs only. */
  function TaggerWords(lines: seq<string>): (r: Run)
    ensures r.Finished? <==> forall i :: 0 <= i < |lines| ==> !AllSeparators(lines[i], '\t')
    ensures r.Finished? ==> |r.output| == |lines|
    ensures r.Stopped? ==> r.at < |lines| && |r.output| == r.at && AllSeparators(lines[r.at], '\t')
    ensures forall i :: 0 <= i < |r.output| ==> TaggerWord(lines[i]) == Some(r.output[i])
  {
    if |lines| == 0 then Finished([])
    else match TaggerWord(lines[0])
      case None => Stopped(0, [])
      case Some(w) =>
        match TaggerWords(lines[1..])
        case Finished(out) => Finished([w] + out)
        case Stopped(at, out) => Stopped(at + 1, [w] + out)
  }

  /** One line of "Count&Sort with stats": rank, word and count. */
  function StatLine(rank: nat, s: Stat): (r: string)
  {
    Decimal(rank) + " " + s.word + " " + Decimal(s.occurrences)
  }

  /** The lines of "Count&Sort with stats", ranks counting from 1. A line
      whose word is a non-empty word without spaces reads back as its rank,
      its word and its count, and Filter keys it on the word. */
  function StatLines(ranking: seq<Stat>): (r: seq<string>)
    ensures |r| == |ranking|
    ensures forall i :: 0 <= i < |r| && ranking[i].word != "" && ' ' !in ranking[i].word ==>
              && Split(r[i], ' ') == [Decimal(i + 1), ranking[i].word, Decimal(ranking[i].occurrences)]
              && DecimalValue(Split(r[i], ' ')[0]) == i + 1
              && DecimalValue(Split(r[i], ' ')[2]) == ranking[i].occurrences
              && FilterKey(r[i]) == Some(ranking[i].word)
  {
    StatLinesRead(ranking);
    seq(|ranking|, i requires 0 <= i < |ranking| => StatLine(i + 1, ranking[i]))
  }

  lemma StatLinesRead(ranking: seq<Stat>)
    ensures forall i :: 0 <= i < |ranking| && ranking[i].word != "" && ' ' !in ranking[i].word ==>
              && Split(StatLine(i + 1, ranking[i]), ' ') == [Decimal(i + 1), ranking[i].word, Decimal(ranking[i].occurrences)]
              && DecimalValue(Split(StatLine(i + 1, ranking[i]), ' ')[0]) == i + 1
              && DecimalValue(Split(StatLine(i + 1, ranking[i]), ' ')[2]) == ranking[i].occurrences
              && FilterKey(StatLine(i + 1, ranking[i])) == Some(ranking[i].word)
  {
    forall i | 0 <= i < |ranking| && ranking[i].word != "" && ' ' !in ranking[i].word {
      StatLineRoundTrip(i + 1, ranking[i]);
    }
  }

  /** A stats line reads back as its rank, its word and its count, and Filter
      takes the word as its key. */
  lemma StatLineRoundTrip(rank: nat, s: Stat)
    requires s.word != "" && ' ' !in s.word
    ensures Split(StatLine(rank, s), ' ') == [Decimal(rank), s.word, Decimal(s.occurrences)]
    ensures DecimalValue(Split(StatLine(rank, s), ' ')[0]) == rank
    ensures DecimalValue(Split(StatLine(rank, s), ' ')[2]) == s.occurrences
    ensures FilterKey(StatLine(rank, s)) == Some(s.word)
  {
    var a, c := Decimal(rank), Decimal(s.occurrences);
    assert ' ' !in a && ' ' !in c by {
      assert forall i :: 0 <= i < |a| ==> IsDigit(a[i]);
      assert forall i :: 0 <= i < |c| ==> IsDigit(c[i]);
    }
    var fs := [a, s.word, c];
    assert Join(fs[2..], ' ') == c;
    assert Join(fs[1..], ' ') == s.word + " " + c;
    assert Join(fs, ' ') == StatLine(rank, s);
    SplitJoin(fs, ' ');
    DecimalRoundTrip(rank);
    DecimalRoundTrip(s.occurrences);
    KeyOfTriple(a, s.word, c);
  }

  /** The output of Count&Sort for the words read: the ranking printed with
      stats, or its words alone. */
  function CountSortLines(words: seq<string>, withStats: bool): (r: seq<string>)
    ensures |r| == |Accumulate(words)|
    ensures !withStats ==> forall w :: w in r <==> w in words
    ensures !withStats ==> forall i, j :: 0 <= i < j < |r| ==> r[i] != r[j]
  {
    var ranking := Rank(Accumulate(words));
    RankedStatistics(words);
    assert |ranking| == |multiset(ranking)| == |multiset(Accumulate(words))| == |Accumulate(words)|;
    if withStats then StatLines(ranking) else Words(ranking)
  }

  // -------------------------------------------------------------- Preview

  /** Number of lines the preview pane shows. */
  const PreviewLines := 11

  /** Lines each followed by a newline, as the preview buffer is built. */
  function Terminated(lines: seq<string>): (r: string)
  {
    if |lines| == 0 then "" else lines[0] + "\n" + Terminated(lines[1..])
  }

  /** The preview text: the first lines of the document, at most eleven,
      each followed by a newline. */
  function Preview(lines: seq<string>): (r: string)
    ensures var n := if |lines| < PreviewLines then |lines| else PreviewLines;
            r == Join(lines[..n] + [""], '\n')
  {
    var n := if |lines| < PreviewLines then |lines| else PreviewLines;
    TerminatedJoin(lines[..n]);
    Terminated(lines[..n])
  }

  lemma {:induction false} TerminatedJoin(lines: seq<string>)
    ensures Terminated(lines) == Join(lines + [""], '\n')
  {
    if |lines| > 0 {
      TerminatedJoin(lines[1..]);
      assert (lines + [""])[1..] == lines[1..] + [""];
    }
  }

  /** Cutting the preview at newlines gives back the first lines, at most
      eleven, and the empty rest after the last newline. */
  lemma PreviewRoundTrip(lines: seq<string>)
    requires forall i :: 0 <= i < |lines| ==> '\n' !in lines[i]
    ensures var n := if |lines| < PreviewLines then |lines| else PreviewLines;
            Fields(Preview(lines), '\n') == lines[..n] + [""]
  {
    var n := if |lines| < PreviewLines then |lines| else PreviewLines;
    TerminatedJoin(lines[..n]);
    FieldsJoin(lines[..n] + [""], '\n');
  }
}

=== FILE: word_stats.dfy ===
/** The word statistics behind Count&Sort: a list of (word, occurrences)
    entries grown one word at a time by a linear scan, then ranked by a stable
    sort on occurrences, most frequent first. */
module WordStats {

  datatype Stat = Stat(word: string, occurrences: nat)

  /** The words of the entries, in list order. */
  function Words(list: seq<Stat>): (r: seq<string>)
  {
    seq(|list|, i requires 0 <= i < |list| => list[i].word)
  }

  /** No word has two entries. */
  ghost predicate Distinct(list: seq<Stat>)
  {
    forall i, j :: 0 <= i < j < |list| ==> list[i].word != list[j].word
  }

  /** The sum of all counts. */
  function Total(list: seq<Stat>): (r: nat)
  {
    if |list| == 0 then 0 else list[0].occurrences + Total(list[1..])
  }

  /** One step of the accumulator: a linear scan for the word's entry. The
      list grows by at most one entry and its total by exactly one. */
  function AddWord(word: string, list: seq<Stat>): (r: seq<Stat>)
    ensures |list| <= |r| <= |list| + 1
    ensures Total(r) == Total(list) + 1
  {
    if |list| == 0 then [Stat(word, 1)]
    else if list[0].word == word then
      var r := [Stat(word, list[0].occurrences + 1)] + list[1..];
      assert r[1..] == list[1..];
      r
    else
      var rest := AddWord(word, list[1..]);
      assert ([list[0]] + rest)[1..] == rest;
      [list[0]] + rest
  }

  /** Where the first entry for `word` is, or `|list|` when there is none. */
  function Position(list: seq<Stat>, word: string): (r: nat)
    ensures r <= |list|
    ensures r < |list| ==> list[r].word == word
    ensures forall j :: 0 <= j < r ==> list[j].word != word
  {
    if |list| == 0 then 0 else if list[0].word == word then 0 else 1 + Position(list[1..], word)
  }

  /** The first entry for the word is counted up and nothing else changes;
      when there is no entry, one with a single occurrence is appended. */
  lemma {:induction false} AddWordSpec(word: string, list: seq<Stat>)
    ensures var i := Position(list, word);
            AddWord(word, list)
            == if i < |list| then list[i := Stat(word, list[i].occurrences + 1)] else list + [Stat(word, 1)]
  {
    if |list| > 0 {
      if list[0].word == word {
        UpdateHead(list, Stat(word, list[0].occurrences + 1));
      } else {
        AddWordSpec(word, list[1..]);
        var j := Position(list[1..], word);
        if j < |list| - 1 {
          UpdateTail(list, j, Stat(word, list[j + 1].occurrences + 1));
        } else {
          AppendTail(list, Stat(word, 1));
        }
      }
    }
  }

  lemma UpdateHead<T>(s: seq<T>, v: T)
    requires |s| > 0
    ensures [v] + s[1..] == s[0 := v]
  {
  }

  lemma UpdateTail<T>(s: seq<T>, j: nat, v: T)
    requires j + 1 < |s|
    ensures [s[0]] + s[1..][j := v] == s[j + 1 := v]
  {
  }

  lemma AppendTail<T>(s: seq<T>, v: T)
    requires |s| > 0
    ensures [s[0]] + (s[1..] + [v]) == s + [v]
  {
  }

  /** A word has an entry exactly when it is among the listed words. */
  lemma PositionWords(list: seq<Stat>, word: string)
    ensures Position(list, word) < |list| <==> word in Words(list)
  {
    if word in Words(list) {
      var k :| 0 <= k < |list| && Words(list)[k] == word;
      assert list[k].word == word;
    }
    var r := Position(list, word);
    if r < |list| {
      assert Words(list)[r] == word;
    }
  }

  /** Adding a word leaves the words of the list alone, apart from appending
      a word seen for the first time. */
  lemma AddWordWords(word: string, list: seq<Stat>)
    ensures Words(AddWord(word, list)) == if word in Words(list) then Words(list) else Words(list) + [word]
  {
    AddWordSpec(word, list);
    PositionWords(list, word);
    var i := Position(list, word);
    var r := AddWord(word, list);
    if i < |list| {
      forall k | 0 <= k < |r| ensures Words(r)[k] == Words(list)[k] {
      }
    } else {
      forall k | 0 <= k < |r| ensures Words(r)[k] == (Words(list) + [word])[k] {
      }
    }
  }

  /** On a list without repeated words, adding a word counts up the entry of
      that word and no other. */
  lemma AddWordCounts(word: string, list: seq<Stat>)
    requires Distinct(list)
    ensures forall i :: 0 <= i < |AddWord(word, list)| ==>
              AddWord(word, list)[i].occurrences
              == (if i < |list| then list[i].occurrences else 0) + (if AddWord(word, list)[i].word == word then 1 else 0)
  {
    AddWordSpec(word, list);
    var i := Position(list, word);
    if i < |list| {
      forall k | 0 <= k < |list| && k != i ensures list[k].word != word {
      }
    }
  }

  /** Feeds the words, in order, to an initially empty list; every word fed
      adds one to the total. */
  function Accumulate(words: seq<string>): (r: seq<Stat>)
    ensures |r| <= |words|
    ensures Total(r) == |words|
  {
    if |words| == 0 then [] else AddWord(words[|words| - 1], Accumulate(words[..|words| - 1]))
  }

  /** Where `w` first occurs in `words`, or `|words|` when it does not. */
  function FirstIndex(words: seq<string>, w: string): (r: nat)
    ensures r <= |words|
    ensures r < |words| <==> w in words
    ensures r < |words| ==> words[r] == w
    ensures forall j :: 0 <= j < r ==> words[j] != w
  {
    if |words| == 0 then 0 else if words[0] == w then 0 else 1 + FirstIndex(words[1..], w)
  }

  /** The entry scan and the word search agree: the first entry for a word
      sits where the word first occurs among the listed words. */
  lemma PositionFirstIndex(list: seq<Stat>, word: string)
    ensures Position(list, word) == FirstIndex(Words(list), word)
  {
    var p, f, ws := Position(list, word), FirstIndex(Words(list), word), Words(list);
    if p < |list| {
      assert ws[p] == word;
    }
    if f < |list| {
      assert list[f].word == ws[f];
    }
  }

  lemma FirstIndexOfPrefix(words: seq<string>, w: string, n: nat)
    requires n <= |words| && w in words[..n]
    ensures FirstIndex(words, w) == FirstIndex(words[..n], w)
  {
    var k := FirstIndex(words[..n], w);
    assert words[k] == w;
  }

  /** The words of the accumulated list are exactly the words fed. */
  lemma {:induction false} AccumulateMembers(words: seq<string>)
    ensures forall w :: w in words <==> w in Words(Accumulate(words))
  {
    if |words| > 0 {
      var n := |words| - 1;
      var prev, w := words[..n], words[n];
      AccumulateMembers(prev);
      AddWordWords(w, Accumulate(prev));
      assert words == prev + [w];
    }
  }

  /** No word is listed twice. */
  lemma {:induction false} AccumulateDistinct(words: seq<string>)
    ensures forall i, j :: 0 <= i < j < |Accumulate(words)| ==> Words(Accumulate(words))[i] != Words(Accumulate(words))[j]
  {
    if |words| > 0 {
      var n := |words| - 1;
      var prev := Accumulate(words[..n]);
      AccumulateDistinct(words[..n]);
      AddWordWords(words[n], prev);
      var ws, ps := Words(Accumulate(words)), Words(prev);
      if words[n] !in ps {
        assert ws == ps + [words[n]];
        forall i, j | 0 <= i < j < |ws| ensures ws[i] != ws[j] {
          assert ws[i] == ps[i];
          if j < |ps| {
            assert ws[j] == ps[j];
          }
        }
      }
    }
  }

  /** `listed` is in order of first occurrence in `words`. */
  ghost predicate FirstSeenOrder(listed: seq<string>, words: seq<string>)
  {
    forall i, j :: 0 <= i < j < |listed| ==> FirstIndex(words, listed[i]) < FirstIndex(words, listed[j])
  }

  ghost predicate AllIn(listed: seq<string>, words: seq<string>)
  {
    forall i :: 0 <= i < |listed| ==> listed[i] in words
  }

  /** The words are listed in order of first occurrence. */
  lemma {:induction false} AccumulateOrder(words: seq<string>)
    ensures FirstSeenOrder(Words(Accumulate(words)), words)
  {
    if |words| > 0 {
      var n := |words| - 1;
      var prev := words[..n];
      AccumulateOrder(prev);
      AccumulateIn(prev);
      AddWordWords(words[n], Accumulate(prev));
      OrderStep(Words(Accumulate(prev)), prev, words[n], words, Words(Accumulate(words)));
    }
  }

  lemma AccumulateIn(words: seq<string>)
    ensures AllIn(Words(Accumulate(words)), words)
    ensures forall w :: w in words ==> w in Words(Accumulate(words))
  {
    AccumulateMembers(words);
  }

  /** One word `w` more, `all` being `seen` followed by `w`: words listed in
      order of first occurrence in `seen` stay so in `all`, with `w` appended
      when it is new. */
  lemma OrderStep(listed: seq<string>, seen: seq<string>, w: string, all: seq<string>, after: seq<string>)
    requires |all| == |seen| + 1 && all[..|seen|] == seen && all[|seen|] == w
    requires after == if w in listed then listed else listed + [w]
    requires AllIn(listed, seen) && (w in seen ==> w in listed)
    requires FirstSeenOrder(listed, seen)
    ensures FirstSeenOrder(after, all)
  {
    forall i | 0 <= i < |listed| ensures FirstIndex(all, listed[i]) == FirstIndex(seen, listed[i]) < |seen| {
      ExtendFirstIndex(all, seen, listed[i]);
    }
    if w !in listed {
      ExtendFirstIndex(all, seen, w);
      assert FirstIndex(all, w) == |seen|;
      forall i, j | 0 <= i < j < |after| ensures FirstIndex(all, after[i]) < FirstIndex(all, after[j]) {
        assert after[i] == listed[i];
      }
    }
  }

  /** The first index of a word in `seen` followed by one more word: as in
      `seen` when it occurs there, and `|seen|` otherwise. */
  lemma ExtendFirstIndex(all: seq<string>, seen: seq<string>, v: string)
    requires |all| == |seen| + 1 && all[..|seen|] == seen
    ensures v in seen ==> FirstIndex(all, v) == FirstIndex(seen, v) < |seen|
    ensures v !in seen && v == all[|seen|] ==> FirstIndex(all, v) == |seen|
  {
    if v in seen {
      FirstIndexOfPrefix(all, v, |seen|);
    } else if v == all[|seen|] {
      forall j | 0 <= j < |seen| ensures all[j] != v {
        assert all[j] == all[..|seen|][j];
      }
    }
  }

  /** The accumulated list has one entry per word. */
  lemma AccumulateEntriesDistinct(words: seq<string>)
    ensures Distinct(Accumulate(words))
  {
    AccumulateDistinct(words);
    var r := Accumulate(words);
    forall i, j | 0 <= i < j < |r| ensures r[i].word != r[j].word {
      assert Words(r)[i] != Words(r)[j];
    }
  }

  /** Each entry of the accumulated list counts exactly the occurrences of
      its word. */
  lemma {:induction false} AccumulateCounts(words: seq<string>)
    ensures forall i :: 0 <= i < |Accumulate(words)| ==>
              Accumulate(words)[i].occurrences == multiset(words)[Accumulate(words)[i].word] >= 1
  {
    if |words| > 0 {
      var n := |words| - 1;
      var prev := words[..n];
      AccumulateCounts(prev);
      AccumulateEntriesDistinct(prev);
      AccumulateMembers(prev);
      assert prev + [words[n]] == words;
      CountStep(Accumulate(prev), prev, words[n]);
    }
  }

  /** One word more: a list that counts `seen` exactly counts `seen + [w]`
      exactly once `w` is added. */
  lemma CountStep(list: seq<Stat>, seen: seq<string>, w: string)
    requires Distinct(list)
    requires forall v :: v in seen <==> v in Words(list)
    requires forall i :: 0 <= i < |list| ==> list[i].occurrences == multiset(seen)[list[i].word] >= 1
    ensures forall i :: 0 <= i < |AddWord(w, list)| ==>
              AddWord(w, list)[i].occurrences == multiset(seen + [w])[AddWord(w, list)[i].word] >= 1
  {
    AddWordSpec(w, list);
    PositionWords(list, w);
    var r := AddWord(w, list);
    var p := Position(list, w);
    assert multiset(seen + [w]) == multiset(seen) + multiset{w};
    forall i | 0 <= i < |r| ensures r[i].occurrences == multiset(seen + [w])[r[i].word] >= 1 {
      if i < |list| && i != p {
        assert Words(list)[i] == list[i].word;
      }
    }
  }

  /** Collections.sort's order: occurrences never increase along the list. */
  ghost predicate Ranked(list: seq<Stat>)
  {
    forall i, j :: 0 <= i < j < |list| ==> list[i].occurrences >= list[j].occurrences
  }

  /** Places `s` in front of the first entry it is not outranked by, so that
      it precedes every entry of a ranked list with the same count. */
  function Insert(s: Stat, list: seq<Stat>): (r: seq<Stat>)
  {
    if |list| == 0 || s.occurrences >= list[0].occurrences then [s] + list
    else [list[0]] + Insert(s, list[1..])
  }

  lemma {:induction false} InsertElements(s: Stat, list: seq<Stat>)
    ensures multiset(Insert(s, list)) == multiset{s} + multiset(list)
  {
    if |list| > 0 && s.occurrences < list[0].occurrences {
      InsertElements(s, list[1..]);
      assert list == [list[0]] + list[1..];
    }
  }

  lemma {:induction false} InsertRanked(s: Stat, list: seq<Stat>)
    requires Ranked(list)
    ensures Ranked(Insert(s, list))
  {
    if |list| > 0 && s.occurrences < list[0].occurrences {
      var tail := list[1..];
      InsertRanked(s, tail);
      InsertElements(s, tail);
      var ins := Insert(s, tail);
      forall j | 0 <= j < |ins| ensures list[0].occurrences >= ins[j].occurrences {
        assert ins[j] in multiset(ins);
        if ins[j] != s {
          assert ins[j] in tail;
        }
      }
    }
  }

  /** Java's Collections.sort with a comparator on occurrences alone: an
      insertion of each entry into the ranked rest. The result is ranked and
      is a permutation of the input. */
  function Rank(list: seq<Stat>): (r: seq<Stat>)
    ensures Ranked(r)
    ensures multiset(r) == multiset(list)
  {
    if |list| == 0 then []
    else
      var tail := Rank(list[1..]);
      InsertRanked(list[0], tail);
      InsertElements(list[0], tail);
      assert list == [list[0]] + list[1..];
      Insert(list[0], tail)
  }

  /** The entries with `k` occurrences, in list order. */
  function WithCount(list: seq<Stat>, k: nat): (r: seq<Stat>)
  {
    if |list| == 0 then []
    else (if list[0].occurrences == k then [list[0]] else []) + WithCount(list[1..], k)
  }

  /** Among the entries of one count, the inserted entry comes first. */
  lemma {:induction false} InsertWithCount(s: Stat, list: seq<Stat>, k: nat)
    ensures WithCount(Insert(s, list), k) == (if s.occurrences == k then [s] else []) + WithCount(list, k)
  {
    var own := if s.occurrences == k then [s] else [];
    if |list| == 0 || s.occurrences >= list[0].occurrences {
      assert ([s] + list)[1..] == list;
    } else {
      var head := if list[0].occurrences == k then [list[0]] else [];
      var tail := list[1..];
      InsertWithCount(s, tail, k);
      assert ([list[0]] + Insert(s, tail))[1..] == Insert(s, tail);
      assert WithCount(Insert(s, list), k) == head + (own + WithCount(tail, k));
      assert head == [] || own == [];
      assert head + own == own + head;
    }
  }

  /** The sort is stable: the entries of any one count come out in the order
      they went in. */
  lemma {:induction false} RankStable(list: seq<Stat>, k: nat)
    ensures WithCount(Rank(list), k) == WithCount(list, k)
  {
    if |list| > 0 {
      RankStable(list[1..], k);
      InsertWithCount(list[0], Rank(list[1..]), k);
    }
  }

  lemma WithCountHead(list: seq<Stat>)
    requires |list| > 0
    ensures WithCount(list, list[0].occurrences) == [list[0]] + WithCount(list[1..], list[0].occurrences)
  {
  }

  lemma {:induction false} WithCountMember(list: seq<Stat>, s: Stat)
    ensures s in list <==> s in WithCount(list, s.occurrences)
  {
    if |list| > 0 {
      WithCountMember(list[1..], s);
      assert s in list <==> s == list[0] || s in list[1..];
    }
  }

  /** A stable sort is determined by its input: two ranked lists that agree
      on the entries of every count are equal. So Rank computes exactly what
      any stable sort on occurrences, Java's merge sort among them, computes. */
  lemma {:induction false} StableSortUnique(a: seq<Stat>, b: seq<Stat>)
    requires Ranked(a) && Ranked(b)
    requires forall k :: WithCount(a, k) == WithCount(b, k)
    ensures a == b
  {
    if |a| == 0 || |b| == 0 {
      if |a| > 0 {
        WithCountHead(a);
      } else if |b| > 0 {
        WithCountHead(b);
      }
    } else {
      var ka, kb := a[0].occurrences, b[0].occurrences;
      WithCountHead(a);
      WithCountHead(b);
      assert ka == kb by {
        WithCountMember(a, b[0]);
        WithCountMember(b, a[0]);
        var i :| 0 <= i < |a| && a[i] == b[0];
        var j :| 0 <= j < |b| && b[j] == a[0];
      }
      forall k ensures WithCount(a[1..], k) == WithCount(b[1..], k) {
        if k == ka {
          assert ([a[0]] + WithCount(a[1..], k))[1..] == WithCount(a[1..], k);
          assert ([b[0]] + WithCount(b[1..], k))[1..] == WithCount(b[1..], k);
        } else {
          assert WithCount(a, k) == WithCount(a[1..], k);
          assert WithCount(b, k) == WithCount(b[1..], k);
        }
      }
      StableSortUnique(a[1..], b[1..]);
      assert a == [a[0]] + a[1..] && b == [b[0]] + b[1..];
    }
  }

  /** Every pair of entries stands in relation `R` in list order, or is
      swapped and then strictly ranked. */
  ghost predicate KeepsOrder(list: seq<Stat>, R: (Stat, Stat) -> bool)
  {
    forall i, j :: 0 <= i < j < |list| ==>
      R(list[i], list[j]) || (list[i].occurrences > list[j].occurrences && R(list[j], list[i]))
  }

  lemma {:induction false} InsertKeepsOrder(s: Stat, list: seq<Stat>, R: (Stat, Stat) -> bool)
    requires KeepsOrder(list, R)
    requires forall i :: 0 <= i < |list| ==> R(s, list[i])
    ensures KeepsOrder(Insert(s, list), R)
  {
    if |list| == 0 || s.occurrences >= list[0].occurrences {
      ConsKeepsOrder(s, list, R);
    } else {
      var tail := list[1..];
      KeepsOrderTail(list, R);
      InsertKeepsOrder(s, tail, R);
      var ins := Insert(s, tail);
      forall i | 0 <= i < |ins|
        ensures R(list[0], ins[i]) || (list[0].occurrences > ins[i].occurrences && R(ins[i], list[0]))
      {
        InsertMember(s, tail, i);
        if ins[i] != s {
          var t :| 0 <= t < |tail| && tail[t] == ins[i];
          assert list[t + 1] == ins[i];
        }
      }
      ConsKeepsOrder(list[0], ins, R);
    }
  }

  /** Putting `x` in front keeps the relation when it holds between `x` and
      every later entry. */
  lemma ConsKeepsOrder(x: Stat, rest: seq<Stat>, R: (Stat, Stat) -> bool)
    requires KeepsOrder(rest, R)
    requires forall i :: 0 <= i < |rest| ==> R(x, rest[i]) || (x.occurrences > rest[i].occurrences && R(rest[i], x))
    ensures KeepsOrder([x] + rest, R)
  {
    var r := [x] + rest;
    forall i, j | 0 <= i < j < |r|
      ensures R(r[i], r[j]) || (r[i].occurrences > r[j].occurrences && R(r[j], r[i]))
    {
      assert r[j] == rest[j - 1];
      if i > 0 {
        assert r[i] == rest[i - 1];
      }
    }
  }

  lemma KeepsOrderTail(list: seq<Stat>, R: (Stat, Stat) -> bool)
    requires |list| > 0 && KeepsOrder(list, R)
    ensures KeepsOrder(list[1..], R)
  {
    var tail := list[1..];
    forall i, j | 0 <= i < j < |tail|
      ensures R(tail[i], tail[j]) || (tail[i].occurrences > tail[j].occurrences && R(tail[j], tail[i]))
    {
      assert tail[i] == list[i + 1] && tail[j] == list[j + 1];
    }
  }

  /** Each entry after an insertion is the inserted one or was there before. */
  lemma InsertMember(s: Stat, list: seq<Stat>, i: nat)
    requires i < |Insert(s, list)|
    ensures Insert(s, list)[i] == s || Insert(s, list)[i] in list
  {
    InsertElements(s, list);
    assert Insert(s, list)[i] in multiset(Insert(s, list));
  }

  /** Ranking preserves any pairwise relation of the input, except for pairs
      the sort had to swap because the later entry is strictly more frequent. */
  lemma {:induction false} RankKeepsOrder(list: seq<Stat>, R: (Stat, Stat) -> bool)
    requires forall i, j :: 0 <= i < j < |list| ==> R(list[i], list[j])
    ensures KeepsOrder(Rank(list), R)
  {
    if |list| > 0 {
      var tail := Rank(list[1..]);
      RankKeepsOrder(list[1..], R);
      forall i | 0 <= i < |tail| ensures R(list[0], tail[i]) {
        assert tail[i] in multiset(tail);
        var t :| 0 <= t < |list[1..]| && list[1..][t] == tail[i];
        assert list[t + 1] == tail[i];
      }
      InsertKeepsOrder(list[0], tail, R);
    }
  }

  /** Every entry of the ranking is an entry of the accumulated list. */
  lemma RankedFromAccumulated(words: seq<string>, x: Stat)
    requires x in Rank(Accumulate(words))
    ensures x in Accumulate(words)
    ensures x.occurrences == multiset(words)[x.word] >= 1
  {
    AccumulateCounts(words);
    var acc := Accumulate(words);
    assert x in multiset(Rank(acc));
    var p :| 0 <= p < |acc| && acc[p] == x;
  }

  /** A word of a list is a word of any permutation of it. */
  lemma WordOfPermutation(a: seq<Stat>, b: seq<Stat>, w: string)
    requires multiset(a) == multiset(b) && w in Words(a)
    ensures w in Words(b)
  {
    var p :| 0 <= p < |a| && Words(a)[p] == w;
    assert a[p] in multiset(b);
    var q :| 0 <= q < |b| && b[q] == a[p];
    assert Words(b)[q] == w;
  }

  /** The ranking lists every word fed, and nothing else. */
  lemma RankedMembers(words: seq<string>)
    ensures forall w :: w in words <==> w in Words(Rank(Accumulate(words)))
  {
    AccumulateMembers(words);
    var acc := Accumulate(words);
    var r := Rank(acc);
    forall w ensures w in Words(acc) <==> w in Words(r) {
      if w in Words(acc) {
        WordOfPermutation(acc, r, w);
      } else if w in Words(r) {
        WordOfPermutation(r, acc, w);
      }
    }
  }

  /** The ranking has one entry per word. */
  lemma RankedDistinct(words: seq<string>)
    ensures Distinct(Rank(Accumulate(words)))
  {
    AccumulateEntriesDistinct(words);
    var differ := (x: Stat, y: Stat) => x.word != y.word;
    RankKeepsOrder(Accumulate(words), differ);
  }

  /** Words with equal counts are ranked in order of first occurrence. */
  lemma RankedTies(words: seq<string>)
    ensures forall i, j :: 0 <= i < j < |Rank(Accumulate(words))|
              && Rank(Accumulate(words))[i].occurrences == Rank(Accumulate(words))[j].occurrences
              ==> FirstIndex(words, Rank(Accumulate(words))[i].word) < FirstIndex(words, Rank(Accumulate(words))[j].word)
  {
    AccumulateOrder(words);
    var acc := Accumulate(words);
    var earlier := (x: Stat, y: Stat) => FirstIndex(words, x.word) < FirstIndex(words, y.word);
    forall i, j | 0 <= i < j < |acc| ensures earlier(acc[i], acc[j]) {
      assert Words(acc)[i] == acc[i].word && Words(acc)[j] == acc[j].word;
    }
    RankKeepsOrder(acc, earlier);
  }

  /** The ranking of a word stream: distinct words, each with its exact count,
      every word fed present, most frequent first, and ties in order of first
      occurrence. */
  lemma RankedStatistics(words: seq<string>)
    ensures Distinct(Rank(Accumulate(words)))
    ensures forall w :: w in words <==> w in Words(Rank(Accumulate(words)))
    ensures forall i :: 0 <= i < |Rank(Accumulate(words))| ==>
              Rank(Accumulate(words))[i].occurrences == multiset(words)[Rank(Accumulate(words))[i].word] >= 1
    ensures Ranked(Rank(Accumulate(words)))
    ensures forall i, j :: 0 <= i < j < |Rank(Accumulate(words))|
              && Rank(Accumulate(words))[i].occurrences == Rank(Accumulate(words))[j].occurrences
              ==> FirstIndex(words, Rank(Accumulate(words))[i].word) < FirstIndex(words, Rank(Accumulate(words))[j].word)
  {
    RankedDistinct(words);
    RankedMembers(words);
    RankedTies(words);
    var r := Rank(Accumulate(words));
    forall i | 0 <= i < |r| ensures r[i].occurrences == multiset(words)[r[i].word] >= 1 {
      RankedFromAccumulated(words, r[i]);
    }
  }

  /** `a b a c b a` ranks as a:3, b:2, c:1. */
  lemma RankingExample()
    ensures Rank(Accumulate(["a", "b", "a", "c", "b", "a"])) == [Stat("a", 3), Stat("b", 2), Stat("c", 1)]
  {
    CountingExample();
    SortedExample();
  }

  lemma SortedExample()
    ensures Rank([Stat("a", 3), Stat("b", 2), Stat("c", 1)]) == [Stat("a", 3), Stat("b", 2), Stat("c", 1)]
  {
    var acc := [Stat("a", 3), Stat("b", 2), Stat("c", 1)];
    assert acc[1..] == [Stat("b", 2), Stat("c", 1)];
    assert acc[1..][1..] == [Stat("c", 1)];
    assert [Stat("c", 1)][1..] == [];
    assert Rank([Stat("c", 1)]) == [Stat("c", 1)];
    assert Rank(acc[1..]) == [Stat("b", 2), Stat("c", 1)];
  }

  lemma CountingExample()
    ensures Accumulate(["a", "b", "a", "c", "b", "a"]) == [Stat("a", 3), Stat("b", 2), Stat("c", 1)]
  {
    var ws := ["a", "b", "a", "c", "b", "a"];
    assert ws[..0] == [];
    assert Accumulate(ws[..1]) == [Stat("a", 1)];
    assert ws[..2][..1] == ws[..1];
    assert [Stat("a", 1)][1..] == [];
    assert Accumulate(ws[..2]) == [Stat("a", 1), Stat("b", 1)];
    assert ws[..3][..2] == ws[..2];
    assert Accumulate(ws[..3]) == [Stat("a", 2), Stat("b", 1)];
    assert ws[..4][..3] == ws[..3];
    assert [Stat("b", 1)][1..] == [];
    assert AddWord("c", [Stat("b", 1)]) == [Stat("b", 1), Stat("c", 1)];
    assert Accumulate(ws[..4]) == [Stat("a", 2), Stat("b", 1), Stat("c", 1)];
    assert ws[..5][..4] == ws[..4];
    assert AddWord("b", [Stat("b", 1), Stat("c", 1)]) == [Stat("b", 2), Stat("c", 1)];
    assert Accumulate(ws[..5]) == [Stat("a", 2), Stat("b", 2), Stat("c", 1)];
    assert ws[..6] == ws && ws[..5] == ws[..6][..5];
  }

  /** `x y` keeps first-seen order for the tie. */
  lemma TieExample()
    ensures Rank(Accumulate(["x", "y"])) == [Stat("x", 1), Stat("y", 1)]
  {
    var xy := ["x", "y"];
    assert xy[..0] == [];
    assert Accumulate(xy[..1]) == [Stat("x", 1)];
    assert xy[..2] == xy && xy[..1] == xy[..2][..1];
    assert [Stat("x", 1)][1..] == [];
    var acc := [Stat("x", 1), Stat("y", 1)];
    assert Accumulate(xy) == acc;
    assert Rank(acc[1..]) == [Stat("y", 1)];
  }
}

=== FILE: wrappers.dfy ===
/** Optional values, standing in for Java's `null` and for array reads that
    would throw. */
module Wrappers {

  datatype Option<+T> = None | Some(value: T)

}
